=== FILE: README.md ===
# Filter conditions: a Dafny model

A filter condition is a named rule `(field, operator, value)` over news articles,
for example "`genre` `in` `Feature,Obituary`" or "`headline` `startswith` `PM-`". The
filter-condition service of the publishing server does five things with such a rule.
This project models each of them as pure Dafny functions and proves what they
guarantee:

- **Catalogue check** (`Validation.CheckParameters`). The field must appear in the
  static field catalogue, and the operator must be in the list the catalogue gives
  for that field. The catalogue is `Catalogue.StaticCatalogue`. Coded fields allow
  only `in`/`nin`; free-text fields allow all six operators.
- **Duplicate detection** (`Validation.CheckEquals`, `Validation.AreEqual`). Two
  conditions are identical when field and operator agree and the sorted, upper-cased
  characters of their values agree. A stored record with the same storage key is
  skipped. An update validates the original overlaid with the patch
  (`Validation.OnUpdate`).
- **Value normalisation** (`Normalise.NormaliseList`, `Normalise.FilterValueFor`).
  For `in`/`nin` the raw string becomes a list of terms: integers or strings. For
  the four pattern operators it becomes a case-insensitive pattern.
- **Query translation** (`MongoQuery.GetMongoQuery`, `ElasticQuery.GetElasticQuery`).
  These build the document-store fragment and the search-backend fragment. Both use
  the field projection `Conditions.ProjectField`.
- **In-memory evaluation** (`Matching.DoesMatch`). This evaluates a condition against
  one article, which is modelled as a JSON-like map.

Modules: `Results` (option, result and pass/fail types), `Text` (the Python string
built-ins the service relies on: `find`, `split`, `strip`, `isdigit`, `int`,
`upper`/`lower`), `CharSort` (`sorted` on characters), `Conditions`, `Catalogue`,
`Validation`, `Normalise`, `MongoQuery`, `ElasticQuery`, `Matching`, and `Scenarios`
(worked examples).

Behaviours of the code worth knowing (`filter_condition.py`):

- The string branch of normalisation keeps the split parts untrimmed (line 140).
- The numeric branch is chosen by the first part alone (line 137).
- A comma at index 0 does not count, because the test is `find(',') > 0` (line 136).
- Duplicate detection does not trim (line 108). So `"New Zealand"` and
  `"new zealand "` are different conditions, not duplicates (`Scenarios.TrailingSpaceIsNotDuplicate`).
- `endswith` compiles `.*v` with no end anchor (line 134) and is applied with
  `re.match` (line 223). It therefore behaves as a case-insensitive "contains"
  test, not a suffix test
  (`Normalise.EndsWithMatchesLikeLike`, `Normalise.EndsWithAcceptsNonSuffix`).
- For a comma list whose first part is not a number, the search translation computes
  the split, discards it and returns the raw string (lines 161-162 and 174,
  `ElasticQuery.ElasticValue`).
- The search translation overwrites the condition's `field` with `"query"` (lines 167,
  170 and 173). The model returns the overwritten condition next to the fragment
  (`ElasticQuery.SecondTranslationLosesField`).

## Model

| member | source | states |
|---|---|---|
| Conditions.OperatorNameRoundTrip | server/apps/publish/publish_filters/filter_condition.py:45-53 | every operator's stored name is accepted by the schema's allowed list and reads back as that operator |
| Conditions.Merge | server/apps/publish/publish_filters/filter_condition.py:77-79 | the merged record takes every key the patch carries and keeps every other key of the original, the storage key included |
| Conditions.MergeNoChangeAndIdempotent | server/apps/publish/publish_filters/filter_condition.py:77-79 | an empty patch leaves the record unchanged, and applying a patch twice equals applying it once |
| Conditions.ProjectField | server/apps/publish/publish_filters/filter_condition.py:176-184 | `anpa-category`, `genre` and `subject` become `<field>.value`, `.name` and `.qcode`; every other field is unchanged |
| Conditions.ProjectFieldInjectiveOnSchema | server/apps/publish/publish_filters/filter_condition.py:176-184 | two different schema fields never project to the same query path |
| Catalogue.EntryIndex | server/apps/publish/publish_filters/filter_condition.py:86-87 | the result is -1 exactly when no entry describes the field; otherwise it is the first entry for the field |
| Catalogue.StaticCatalogueCoversSchema | server/apps/publish/publish_filters/filter_condition.py:237-281 | the catalogue describes exactly the eleven fields the resource schema allows |
| Catalogue.StaticCatalogueOperators | server/apps/publish/publish_filters/filter_condition.py:237-281 | coded fields list `in`/`nin` only, free-text fields list all six operators, and the two kinds together make up the schema |
| Catalogue.StaticCatalogueClassified | server/apps/publish/publish_filters/filter_condition.py:237-281 | the catalogue has distinct fields and splits them into coded and free-text fields, listing each with its operators |
| Validation.CheckParameters | server/apps/publish/publish_filters/filter_condition.py:83-94 | passes iff the first catalogue entry for the field lists the operator; fails with the unknown-field error, carrying the name and field, iff no entry describes the field; every other failure is the unknown-operator error carrying the name and operator |
| Validation.CheckParametersDistinct | server/apps/publish/publish_filters/filter_condition.py:83-94 | when the catalogue's fields are distinct, the check passes iff some entry for the field lists the operator |
| Validation.StaticCatalogueUnknownField | server/apps/publish/publish_filters/filter_condition.py:87-90 | against the static catalogue, the unknown-field error occurs iff the field is outside the schema |
| Validation.ClassifiedCatalogueRule | server/apps/publish/publish_filters/filter_condition.py:83-94 | against any catalogue that classifies its fields, the check passes iff the field is free-text, or is coded and the operator is `in`/`nin` |
| Validation.StaticCatalogueRule | server/apps/publish/publish_filters/filter_condition.py:237-281 | against the static catalogue, the check passes iff the field is free-text, or is one of the six coded fields and the operator is `in`/`nin` |
| Validation.AreEqual | server/apps/publish/publish_filters/filter_condition.py:106-112 | two conditions are identical iff field and operator agree and the upper-cased values are permutations of each other |
| Validation.Comparer | server/apps/publish/publish_filters/filter_condition.py:107-108 | the comparison key is sorted and holds exactly the characters of the upper-cased value |
| Validation.AreEqualIsEquivalence | server/apps/publish/publish_filters/filter_condition.py:106-112 | being identical is reflexive, symmetric and transitive |
| Validation.UpperKeepsPermutation | server/apps/publish/publish_filters/filter_condition.py:107-108 | upper-casing maps permutations to permutations |
| Validation.IdenticalIgnoresCaseAndOrder | server/apps/publish/publish_filters/filter_condition.py:106-112 | values that are permutations of each other, or that agree when upper-cased, make identical conditions |
| Validation.IdenticalNeedsSameLength | server/apps/publish/publish_filters/filter_condition.py:107-108 | values of different length are never identical, so white space counts |
| Validation.Candidates | server/apps/publish/publish_filters/filter_condition.py:98 | the candidates are exactly the stored conditions with the record's field and operator |
| Validation.FirstDuplicate | server/apps/publish/publish_filters/filter_condition.py:99-104 | the scan passes iff no candidate is a differently keyed identical condition; a failure names such a candidate |
| Validation.FirstDuplicateNamesFirst | server/apps/publish/publish_filters/filter_condition.py:99-104 | when candidate `i` is the first duplicate in scan order, the scan fails naming exactly that candidate |
| Validation.CandidatesNameFirst | server/apps/publish/publish_filters/filter_condition.py:98-104 | when stored condition `i` is the first duplicate in storage order, scanning the candidates names exactly that condition |
| Validation.CheckEquals | server/apps/publish/publish_filters/filter_condition.py:96-104 | passes iff no stored condition other than the record itself is identical to it; a failure names an identical stored condition |
| Validation.CheckEqualsNamesFirst | server/apps/publish/publish_filters/filter_condition.py:96-104 | a failing duplicate check names the first identical, differently keyed stored condition |
| Validation.FirstFailure | server/apps/publish/publish_filters/filter_condition.py:85-104 | a batch passes iff every entry passes; a failure is the outcome of an entry all of whose predecessors pass, that is, the first failure |
| Validation.FirstFailureIsFirst | server/apps/publish/publish_filters/filter_condition.py:85-104 | the reported failure is that of the first failing entry |
| Validation.CheckEqualsAll | server/apps/publish/publish_filters/filter_condition.py:96-104 | a batch passes iff every record passes the duplicate check; a failure is the duplicate error of one of its records |
| Validation.CheckParametersAll | server/apps/publish/publish_filters/filter_condition.py:83-94 | a batch passes iff every record passes the catalogue check; a failure is the catalogue error of one of its records, never a duplicate error |
| Validation.CheckEqualsAllReportsFirst | server/apps/publish/publish_filters/filter_condition.py:96-104 | a failing batch duplicate check reports the error of the first record that fails it |
| Validation.CheckParametersAllReportsFirst | server/apps/publish/publish_filters/filter_condition.py:84-94 | a failing batch catalogue check reports the error of the first record that fails it |
| Validation.OnCreate | server/apps/publish/publish_filters/filter_condition.py:73-75 | a create passes iff every record passes both checks; any duplicate in the batch makes the duplicate error the outcome, ahead of catalogue errors; a failure is some record's own duplicate or catalogue error |
| Validation.OnCreateReportsFirstDuplicate | server/apps/publish/publish_filters/filter_condition.py:73-75 | a create with a duplicate reports the duplicate error of the first record that has one, whatever the catalogue says |
| Validation.OnCreateReportsFirstCatalogueError | server/apps/publish/publish_filters/filter_condition.py:73-75 | a create without duplicates reports the catalogue error of the first record that fails the catalogue check |
| Validation.OnUpdate | server/apps/publish/publish_filters/filter_condition.py:77-81 | an update passes iff the merged record passes both checks; a duplicate failure is the merged record's duplicate error, and any other failure is its catalogue error raised after the duplicate check passed |
| Validation.RevalidateUnchanged | server/apps/publish/publish_filters/filter_condition.py:77-104 | re-validating a stored condition with an empty patch passes whenever the store holds no duplicates and the condition fits the catalogue |
| Validation.CreateKeepsNoDuplicates | server/apps/publish/publish_filters/filter_condition.py:73-75 | storing a validated new record under a fresh key keeps the store free of duplicates |
| Validation.UpdateKeepsNoDuplicates | server/apps/publish/publish_filters/filter_condition.py:77-81 | replacing a stored record by its validated update keeps the store free of duplicates |
| CharSort.Sort | server/apps/publish/publish_filters/filter_condition.py:108 | the result is ordered and is a permutation of the input |
| CharSort.SortEqualIffPermutation | server/apps/publish/publish_filters/filter_condition.py:108 | two strings sort equal iff they are permutations of each other |
| Text.Find | server/apps/publish/publish_filters/filter_condition.py:136 | -1 iff the character is absent; otherwise the index of its first occurrence |
| Text.Split | server/apps/publish/publish_filters/filter_condition.py:137 | one part per separator plus one; no part holds the separator; the parts joined by the separator give back the input |
| Text.SplitJoin | server/apps/publish/publish_filters/filter_condition.py:140 | parts free of the separator, joined and split again, come back unchanged |
| Text.SplitPeel | server/apps/publish/publish_filters/filter_condition.py:136-137 | a comma-free prefix followed by a comma is found first and is split off as the first part, the rest splitting on its own |
| Text.StripKeepsSlice | server/apps/publish/publish_filters/filter_condition.py:137 | the stripped string is a contiguous slice of the input with only white space before and after it |
| Text.StripEnds | server/apps/publish/publish_filters/filter_condition.py:137 | the stripped string neither starts nor ends with white space |
| Text.Strip | server/apps/publish/publish_filters/filter_condition.py:137 | the result is no longer than the input, and a string without white space at either end is kept as it is |
| Text.IsDigits | server/apps/publish/publish_filters/filter_condition.py:137 | a string of digits has no white space for `strip` to remove |
| Text.Upper | server/apps/publish/publish_filters/filter_condition.py:108 | the result has the input's length and holds, position by position, the ASCII upper-casing of each character |
| Text.UpperFolds | server/apps/publish/publish_filters/filter_condition.py:108 | after upper-casing no lower-case ASCII letter is left, every other character is kept, and each lower-case letter becomes the capital that lower-cases back to it |
| Text.DigitsValueOfDecimalString | server/apps/publish/publish_filters/filter_condition.py:138 | reading back the decimal spelling of a natural number gives that number |
| Text.ParseInt | server/apps/publish/publish_filters/filter_condition.py:138 | a part whose stripped digits have no leading zero is read as the number whose decimal spelling those digits are |
| Text.DecimalStringOfDigits | server/apps/publish/publish_filters/filter_condition.py:138 | spelling out the value of a digit string without a leading zero gives that string back |
| Text.SeparatorPaddedPartDiverges | server/apps/publish/publish_filters/filter_condition.py:137-138 | a part padded with U+001C passes `strip().isdigit()` but lies outside what `int` accepts, while the model reads it as 5 |
| Normalise.SplitsOnCommaMeaning | server/apps/publish/publish_filters/filter_condition.py:136 | the list branch splits iff the value holds a comma and does not start with one |
| Normalise.DigitInts | server/apps/publish/publish_filters/filter_condition.py:138 | the numeric branch yields at most one term per part, every term a non-negative integer |
| Normalise.DigitIntsMembers | server/apps/publish/publish_filters/filter_condition.py:138 | an integer is a term iff some part, stripped, is all digits and denotes it |
| Normalise.DigitIntsAppend | server/apps/publish/publish_filters/filter_condition.py:138 | the numeric branch keeps the order of the parts: it distributes over concatenation |
| Normalise.NormaliseList | server/apps/publish/publish_filters/filter_condition.py:136-142 | without a splitting comma the result is the raw value alone; with a numeric first part, at most commas+1 non-negative integers; otherwise commas+1 comma-free strings that join back into the raw value |
| Normalise.NumericBranchMembers | server/apps/publish/publish_filters/filter_condition.py:137-138 | in the numeric branch an integer is a term iff some comma-separated part, stripped, is all digits and denotes it |
| Normalise.FilterValueFor | server/apps/publish/publish_filters/filter_condition.py:128-142 | `in`/`nin` give the normalised list; the others give a pattern on the literal value, compiled from `^v`, `.*v.*` or `.*v` |
| Normalise.Matches | server/apps/publish/publish_filters/filter_condition.py:223 | `match` succeeds iff the literal occurs, ignoring case, with no newline before it, and at the very start when the pattern begins with `^` |
| Normalise.MatchesAfterRunMeaning | server/apps/publish/publish_filters/filter_condition.py:132 | `.*v` matches iff `v` occurs, ignoring case, at a position with no newline before it |
| Normalise.StartsWithIsCaselessPrefix | server/apps/publish/publish_filters/filter_condition.py:129-130 | `startswith` matches iff the subject's first characters equal the value, ignoring case |
| Normalise.LikeFindsValue | server/apps/publish/publish_filters/filter_condition.py:131-132 | `like` matches iff the value occurs, ignoring case, starting at a position with no newline before it |
| Normalise.EndsWithMatchesLikeLike | server/apps/publish/publish_filters/filter_condition.py:133-134 | the `endswith` pattern accepts exactly the subjects the `like` pattern accepts |
| Normalise.EndsWithAcceptsNonSuffix | server/apps/publish/publish_filters/filter_condition.py:133-134 | `endswith` `view` accepts `Viewpoint`, which does not end with `view` |
| MongoQuery.MongoOperator | server/apps/publish/publish_filters/filter_condition.py:120-126 | `$regex` iff a positive pattern operator; `$not` iff `notlike`; `$in`/`$nin` for the membership operators |
| MongoQuery.MongoOperatorSeparates | server/apps/publish/publish_filters/filter_condition.py:120-126 | only the three positive pattern operators share a store operator |
| MongoQuery.GetMongoQuery | server/apps/publish/publish_filters/filter_condition.py:114-118 | a single key, the projected field, holding a single store operator whose value is the normalised value |
| MongoQuery.MongoNegationKeepsValue | server/apps/publish/publish_filters/filter_condition.py:114-126 | `nin` and `notlike` carry the very value `in` and `like` do; only the operator key differs |
| ElasticQuery.ElasticOperator | server/apps/publish/publish_filters/filter_condition.py:150-154 | `terms` iff a membership operator, `query_string` otherwise |
| ElasticQuery.ElasticValue | server/apps/publish/publish_filters/filter_condition.py:156-174 | membership values are the normalised list, or the raw string for a non-numeric comma list; pattern values are `<field>:<wildcarded value>`, and the condition's field becomes `query` |
| ElasticQuery.GetElasticQuery | server/apps/publish/publish_filters/filter_condition.py:144-148 | a single operator key; membership clauses are keyed by the projected field and leave the condition as it was; pattern clauses are keyed by `query` and leave the condition with only its field overwritten |
| ElasticQuery.SearchTermsMatchStoreTerms | server/apps/publish/publish_filters/filter_condition.py:157-164 | the search terms equal the store query's normalised list, except for the raw string of a non-numeric comma list |
| ElasticQuery.PatternClause | server/apps/publish/publish_filters/filter_condition.py:165-173 | the query string is `<field>:*v*` for `like`/`notlike`, `<field>:v*` for `startswith` and `<field>:*v` for `endswith`, built from the unprojected field |
| ElasticQuery.QueryStringReadsBack | server/apps/publish/publish_filters/filter_condition.py:165-173 | for a field with no colon, the query string splits at its first colon into the field and the wildcarded value |
| ElasticQuery.SearchIgnoresNegation | server/apps/publish/publish_filters/filter_condition.py:144-174 | the search fragment for `nin` equals the one for `in`, and `notlike` equals `like` |
| ElasticQuery.SecondTranslationLosesField | server/apps/publish/publish_filters/filter_condition.py:166-173 | translating the overwritten condition again builds the query string from `query` |
| Matching.Subscript | server/apps/publish/publish_filters/filter_condition.py:203 | subscripting succeeds iff the value is an object holding the key; otherwise it is a key error on an object and a type error on anything else |
| Matching.SubscriptEach | server/apps/publish/publish_filters/filter_condition.py:205 | succeeds iff every item is an object holding the key, giving the items' values in order; a failure is the `KeyError` or `TypeError` of the first item that cannot be subscripted |
| Matching.ProjectEach | server/apps/publish/publish_filters/filter_condition.py:205-207 | a list projects item by item; an empty string or object projects to the empty list; every other value fails |
| Matching.FieldValue | server/apps/publish/publish_filters/filter_condition.py:201-209 | `anpa-category` is subscripted by `value`; `genre` and `subject` are projected item by item through `name` and `qcode`, the sub-keys the query path uses; every other field is taken as it is |
| Matching.RunFilter | server/apps/publish/publish_filters/filter_condition.py:211-225 | evaluation fails iff a pattern operator meets a value that is not a string |
| Matching.LikeIsContainsTest | server/apps/publish/publish_filters/filter_condition.py:222-223 | on every article holding a string, `like` holds iff the value occurs, ignoring case, with no newline before it |
| Matching.DoesMatch | server/apps/publish/publish_filters/filter_condition.py:186-199 | a missing field gives true iff the operator is `nin` or `notlike`; otherwise evaluation fails iff the projection fails or a pattern operator meets a non-string; a failed projection passes on its own `KeyError` or `TypeError`, and any other failure is a `TypeError` |
| Matching.NotInNegatesIn | server/apps/publish/publish_filters/filter_condition.py:211-221 | `nin` gives exactly the negation of `in`, whether or not the field is present |
| Matching.NotLikeNegatesLike | server/apps/publish/publish_filters/filter_condition.py:222-225 | `notlike` gives exactly the negation of `like`, whether or not the field is present |
| Matching.EndsWithEvaluatesAsLike | server/apps/publish/publish_filters/filter_condition.py:222-223 | `endswith` evaluates exactly as `like` on every article |
| Matching.PyInIsTermMembership | server/apps/publish/publish_filters/filter_condition.py:214-216 | Python `in` on a term list holds iff the value's own term is in the list; booleans count as 0 and 1, and strings never equal integers |
| Matching.PyIn | server/apps/publish/publish_filters/filter_condition.py:214-216 | only ints, booleans and strings can be in a term list; a string is in it iff its string term is, an int iff its integer term is |
| Matching.InMeansSharedTerm | server/apps/publish/publish_filters/filter_condition.py:212-216 | `in` on a list holds iff some element's term is among the normalised terms; on any other value, iff that value's term is |
| Matching.StartsWithIsPrefixTest | server/apps/publish/publish_filters/filter_condition.py:222-223 | `startswith` on a string value is a caseless prefix test |
| Matching.EvaluatesStoreValue | server/apps/publish/publish_filters/filter_condition.py:197-199 | evaluation tests exactly the value the store query embeds; this holds by construction, since both paths call `_get_mongo_value` and the model computes both with `FilterValueFor` |
| Scenarios.SingleTerm | server/apps/publish/publish_filters/filter_condition.py:136-142 | `""`, `Sport` and `,a,b` each normalise to the one-element list of themselves |
| Scenarios.OneAThree | server/apps/publish/publish_filters/filter_condition.py:136-138 | `1,a,3` normalises to the integers 1 and 3 |
| Scenarios.NumberLed | server/apps/publish/publish_filters/filter_condition.py:136-138 | a value led by a digit run and a comma normalises to that number followed by the numbers among the rest's parts |
| Scenarios.WordLed | server/apps/publish/publish_filters/filter_condition.py:136-140 | a value led by a comma-free non-number and a comma normalises to that part followed by the rest's parts, all as strings |
| Scenarios.NumbersBecomeIntegers | server/apps/publish/publish_filters/filter_condition.py:137-138 | two digit runs joined by a comma normalise to their two values |
| Scenarios.LaterWordsDropped | server/apps/publish/publish_filters/filter_condition.py:137-138 | a non-number between two numbers is dropped |
| Scenarios.TwoWords | server/apps/publish/publish_filters/filter_condition.py:139-140 | a non-number first part gives two string terms, the second kept untrimmed even when it is a number |
| Scenarios.GenreByName | server/apps/publish/publish_filters/filter_condition.py:204-205 | an article whose one genre has the listed name passes `in` on `genre` |
| Scenarios.SluglinePrefix | server/apps/publish/publish_filters/filter_condition.py:129-130 | `startswith` `PM-` accepts `pm-budget` |
| Scenarios.SingleValueStaysString | server/apps/publish/publish_filters/filter_condition.py:141-142 | a comma-free value is a string term and equals no integer |
| Scenarios.NumberListMatchesInteger | server/apps/publish/publish_filters/filter_condition.py:137-138 | a comma list of numbers matches an article holding the first number as an integer |
| Scenarios.NumberListMissesString | server/apps/publish/publish_filters/filter_condition.py:214-216 | a comma list of numbers does not match the same number spelt as a string |
| Scenarios.MissingField | server/apps/publish/publish_filters/filter_condition.py:191-195 | with the field absent, `nin` and `notlike` hold and `in` and `like` do not |
| Scenarios.PatternOnListRaises | server/apps/publish/publish_filters/filter_condition.py:222-223 | `like` on a list-valued field is an error |
| Scenarios.LikeStopsAtNewline | server/apps/publish/publish_filters/filter_condition.py:131-132 | `like` `b` accepts `ab` but not `a`, newline, `b` |
| Scenarios.CategoryStoreQuery | server/apps/publish/publish_filters/filter_condition.py:114-118 | `nin` on two category codes queries `anpa-category.value` with `$nin` and the two integers |
| Scenarios.TrailingSpaceIsNotDuplicate | server/apps/publish/publish_filters/filter_condition.py:107-108 | a trailing space makes a value a different rule |
| Scenarios.CaseAndOrderCopiesAreDuplicates | server/apps/publish/publish_filters/filter_condition.py:106-112 | the upper-cased copy of a rule, and one with the halves of its value swapped, are duplicates |
| Scenarios.CreateDuplicateNamesStored | server/apps/publish/publish_filters/filter_condition.py:96-104 | creating a rule identical to a stored one fails, naming the stored rule |
| Scenarios.CreateRejectsOutsideCatalogue | server/apps/publish/publish_filters/filter_condition.py:83-94 | a field outside the schema is an unknown field; a pattern operator on a coded field is an unknown operator |

## Left out

- The resource declarations (lines 23-69: Eve schema, URL lookup, privileges, default sort) are not modelled. Only the allowed field and operator names are kept (`Conditions.SchemaFields`, `Conditions.ParseOperator`). The schema's unique-name rule is not modelled.
- The vocabulary lookups `_get_field_values` (lines 283-291) are left out, together with the `values` and `value_field` entries of the catalogue. They are display data; only the field-to-operators table is modelled.
- The storage reads are replaced by explicit inputs. `get_resource_service('filter_condition_parameters').get` becomes a catalogue parameter. `self.get` becomes a sequence of stored conditions, filtered by field and operator (`Validation.Candidates`).
- The bad-request exceptions are modelled as `Fail` outcomes carrying the values the message is formatted from, not the message text: the condition's name and field for an unknown field (line 90), its name and operator for an unknown operator (line 94), and the stored duplicate's name for identical settings (line 104).
- Patterns treat the value as a literal. Regular-expression metacharacters in a value, and the `re.error` an invalid pattern raises, are not modelled.
- Text.Upper: only ASCII letters change case. Python's full Unicode mapping (which can change a string's length, as `ß` becomes `SS`) and Unicode-aware `re.IGNORECASE` are not modelled.
- Text.IsDigit: only ASCII digits count. Python's `isdigit` and `int` also accept other Unicode digits.
- Text.ParseInt: does not model the `ValueError` of `int` (line 138). CPython's `int` skips only the ASCII spaces space, tab, LF, VT, FF and CR, plus the non-ASCII spaces, while `strip` also removes the information separators U+001C-U+001F. A number part padded with one of those four passes the test at line 137, `int` then raises, and `get_mongo_query`, `get_elastic_query` and `does_match` raise with it; the model reads the part as its digits instead. `Text.IntAccepts` states which parts `int` accepts, and `Text.SeparatorPaddedPartDiverges` gives one it rejects.
- Floating-point article values are not represented. Null values are: `JNull` equals no term and makes a pattern operator raise, as `None` does in Python.
- The `isinstance(value, str)` guard is always true here, because the schema makes `value` a string when it is present.
- Every condition is assumed to carry all four keys `name`, `field`, `operator` and `value` (`Conditions.Condition`). The resource schema declares none of them `required`, so a record without one is accepted by the schema. The service would then raise `KeyError`: at line 98 (`doc['field']`), at line 108 (`fc['value']`) when a candidate exists, and at lines 187-189 in `does_match`. That failure is not modelled.
- What the store and search backends do with the query fragments is not modelled. The fragments are data.
- Records of one create batch are not compared with each other. The service does not compare them either.
- Python's `re.match` returns a match object or `None`. The model keeps only its truth value.
- The currency macros under `server/aap/macros` are not part of this model.

=== FILE: catalogue.dfy ===
/** The static field catalogue the parameters service returns: for each field the
    operators a condition on it may use. The vocabulary lists and `value_field`
    entries that accompany it are display data and are not modelled. */
module Catalogue {
  import opened Conditions

  datatype Entry = Entry(field: string, operators: seq<Operator>)

  const MembershipOperators: seq<Operator> := [In, NotIn]

  const AllOperators: seq<Operator> := [In, NotIn, Like, NotLike, StartsWith, EndsWith]

  /** The catalogue, in the order the service lists it. */
  const StaticCatalogue: seq<Entry> := [
    Entry("anpa-category", MembershipOperators),
    Entry("urgency", MembershipOperators),
    Entry("genre", MembershipOperators),
    Entry("subject", MembershipOperators),
    Entry("priority", MembershipOperators),
    Entry("keywords", AllOperators),
    Entry("slugline", AllOperators),
    Entry("type", MembershipOperators),
    Entry("source", AllOperators),
    Entry("headline", AllOperators),
    Entry("body_html", AllOperators)
  ]

  /** Fields backed by a controlled vocabulary: only `in` and `nin` apply to them. */
  const CodedFields: seq<string> := ["anpa-category", "urgency", "genre", "subject", "priority", "type"]

  /** Free-text fields: every operator applies to them. */
  const TextFields: seq<string> := ["keywords", "slugline", "source", "headline", "body_html"]

  /** Entry `i` is the first one in the catalogue that describes `field`. */
  predicate FirstEntryFor(catalogue: seq<Entry>, i: int, field: string) {
    && 0 <= i < |catalogue|
    && catalogue[i].field == field
    && forall j :: 0 <= j < i ==> catalogue[j].field != field
  }

  /** The index of the first catalogue entry for `field`, or -1 when none describes it
      (the service takes element 0 of the entries whose field matches). */
  function EntryIndex(catalogue: seq<Entry>, field: string): (r: int)
    ensures -1 <= r < |catalogue|
    ensures r == -1 <==> forall i :: 0 <= i < |catalogue| ==> catalogue[i].field != field
    ensures r != -1 ==> FirstEntryFor(catalogue, r, field)
  {
    if |catalogue| == 0 then -1
    else if catalogue[0].field == field then 0
    else
      var k := EntryIndex(catalogue[1..], field);
      if k == -1 then -1 else k + 1
  }

  /** The fields a catalogue describes, in its order. */
  function Fields(catalogue: seq<Entry>): (r: seq<string>)
    ensures |r| == |catalogue|
    ensures forall i :: 0 <= i < |catalogue| ==> r[i] == catalogue[i].field
  {
    seq(|catalogue|, i requires 0 <= i < |catalogue| => catalogue[i].field)
  }

  predicate DistinctFields(catalogue: seq<Entry>) {
    forall i, j :: 0 <= i < j < |catalogue| ==> catalogue[i].field != catalogue[j].field
  }

  /** The static catalogue describes each field once. */
  lemma StaticCatalogueDistinct()
    ensures DistinctFields(StaticCatalogue)
  {
  }

  /** The static catalogue describes exactly the fields the schema allows. */
  lemma StaticCatalogueCoversSchema()
    ensures forall f :: f in Fields(StaticCatalogue) <==> f in SchemaFields
  {
    assert Fields(StaticCatalogue) ==
      ["anpa-category", "urgency", "genre", "subject", "priority", "keywords", "slugline",
       "type", "source", "headline", "body_html"];
  }

  /** Coded fields take only `in`/`nin`, free-text fields take all six operators,
      and the two kinds split the schema's fields between them. */
  lemma StaticCatalogueOperators()
    ensures forall f :: f in SchemaFields <==> f in CodedFields || f in TextFields
    ensures forall i :: 0 <= i < |StaticCatalogue| ==>
      (StaticCatalogue[i].field in CodedFields ==> StaticCatalogue[i].operators == MembershipOperators) &&
      (StaticCatalogue[i].field in TextFields ==> StaticCatalogue[i].operators == AllOperators)
  {
  }

  /** A catalogue that splits its fields into `coded` ones, listed with `in`/`nin`
      only, and `text` ones, listed with all six operators, and describes every
      field of both kinds. */
  ghost predicate Classifies(catalogue: seq<Entry>, coded: seq<string>, text: seq<string>) {
    && DistinctFields(catalogue)
    && (forall f :: f in coded ==> f !in text)
    && (forall f :: f in coded || f in text ==> f in Fields(catalogue))
    && (forall i :: 0 <= i < |catalogue| ==> catalogue[i].field in coded || catalogue[i].field in text)
    && (forall i :: 0 <= i < |catalogue| && catalogue[i].field in coded ==> catalogue[i].operators == MembershipOperators)
    && (forall i :: 0 <= i < |catalogue| && catalogue[i].field in text ==> catalogue[i].operators == AllOperators)
  }

  /** The service's catalogue splits the schema into coded and free-text fields. */
  lemma StaticCatalogueClassified()
    ensures Classifies(StaticCatalogue, CodedFields, TextFields)
  {
    StaticCatalogueDistinct();
    StaticCatalogueCoversSchema();
    StaticCatalogueOperators();
  }
}

=== FILE: charsort.dfy ===
/** Python's `sorted()` applied to the characters of a string (code-point order),
    as used to build the duplicate-detection key. */
module CharSort {

  predicate Sorted(s: string) {
    forall i, j :: 0 <= i < j < |s| ==> s[i] <= s[j]
  }

  /** Inserts `c` into an already sorted string. */
  function Insert(c: char, s: string): (r: string)
    requires Sorted(s)
    ensures Sorted(r)
    ensures multiset(r) == multiset(s) + multiset{c}
  {
    if |s| == 0 || c <= s[0] then
      ConsSorted(c, s);
      [c] + s
    else
      var tail := Insert(c, s[1..]);
      LowerBoundKept(s[0], s[1..], c, tail);
      ConsSorted(s[0], tail);
      assert s == [s[0]] + s[1..];
      [s[0]] + tail
  }

  /** A lower bound of a sorted string can go in front of it. */
  lemma ConsSorted(x: char, s: string)
    requires Sorted(s) && (|s| == 0 || x <= s[0])
    ensures Sorted([x] + s)
  {
    var t := [x] + s;
    forall i, j | 0 <= i < j < |t|
      ensures t[i] <= t[j]
    {
      if i > 0 {
        assert t[i] == s[i - 1] && t[j] == s[j - 1];
      } else {
        assert t[j] == s[j - 1] && s[0] <= s[j - 1];
      }
    }
  }

  /** Every character of `s` is at least `x`. */
  predicate AtLeast(x: char, s: string) {
    forall i :: 0 <= i < |s| ==> x <= s[i]
  }

  /** A lower bound of `s` and of `c` bounds every rearrangement of `s` plus `c`. */
  lemma LowerBoundKept(x: char, s: string, c: char, t: string)
    requires AtLeast(x, s) && x <= c
    requires multiset(t) == multiset(s) + multiset{c}
    ensures AtLeast(x, t)
  {
    forall i | 0 <= i < |t|
      ensures x <= t[i]
    {
      assert t[i] in multiset(t);
      if t[i] != c {
        assert t[i] in multiset(s);
      }
    }
  }

  /** `sorted(s)`: an ordered rearrangement of the characters of `s`. */
  function Sort(s: string): (r: string)
    ensures Sorted(r)
    ensures multiset(r) == multiset(s)
  {
    if |s| == 0 then []
    else
      assert s == [s[0]] + s[1..];
      Insert(s[0], Sort(s[1..]))
  }

  /** The first character of a sorted string is its least character. */
  lemma SortedHeadIsLeast(s: string, c: char)
    requires Sorted(s) && c in multiset(s)
    ensures s[0] <= c
  {
    var i :| 0 <= i < |s| && s[i] == c;
  }

  lemma HeadAndTail(s: string)
    requires |s| > 0
    ensures multiset(s[1..]) == multiset(s) - multiset{s[0]}
    ensures Sorted(s) ==> Sorted(s[1..])
    ensures s == [s[0]] + s[1..]
  {
    assert s == [s[0]] + s[1..];
  }

  /** A sorted string is determined by its multiset of characters. */
  lemma {:induction false} SortedUnique(a: string, b: string)
    requires Sorted(a) && Sorted(b)
    requires multiset(a) == multiset(b)
    ensures a == b
  {
    assert |a| == |multiset(a)| == |multiset(b)| == |b|;
    if |a| > 0 {
      assert a[0] in multiset(a);
      assert b[0] in multiset(b);
      SortedHeadIsLeast(a, b[0]);
      SortedHeadIsLeast(b, a[0]);
      var head := a[0];
      assert head == b[0];
      HeadAndTail(a);
      HeadAndTail(b);
      SortedUnique(a[1..], b[1..]);
      calc {
        a;
        [head] + a[1..];
        [head] + b[1..];
        b;
      }
    }
  }

  /** Two strings sort to the same string exactly when one is a rearrangement of
      the other. */
  lemma SortEqualIffPermutation(a: string, b: string)
    ensures Sort(a) == Sort(b) <==> multiset(a) == multiset(b)
  {
    if multiset(a) == multiset(b) {
      SortedUnique(Sort(a), Sort(b));
    }
  }
}

=== FILE: condition.dfy ===
/** The filter-condition record: a named rule `(field, operator, value)` over news
    articles, the names the resource schema allows, the merge an update performs,
    and the projection of object-valued article fields onto one sub-key. */
module Conditions {
  import opened Results

  /** The six operators the resource schema allows. */
  datatype Operator = In | NotIn | Like | NotLike | StartsWith | EndsWith

  /** The operator as stored and as spelled in the field catalogue. */
  function OperatorName(op: Operator): string {
    match op
    case In => "in"
    case NotIn => "nin"
    case Like => "like"
    case NotLike => "notlike"
    case StartsWith => "startswith"
    case EndsWith => "endswith"
  }

  /** The schema's `allowed` check on the operator name: the six names, nothing else. */
  function ParseOperator(s: string): (r: Option<Operator>)
    ensures r.Some? ==> OperatorName(r.value) == s
  {
    if s == "in" then Some(In)
    else if s == "nin" then Some(NotIn)
    else if s == "like" then Some(Like)
    else if s == "notlike" then Some(NotLike)
    else if s == "startswith" then Some(StartsWith)
    else if s == "endswith" then Some(EndsWith)
    else None
  }

  /** Every operator's stored name reads back as that operator. */
  lemma OperatorNameRoundTrip(op: Operator)
    ensures ParseOperator(OperatorName(op)) == Some(op)
  {
  }

  /** Operators evaluated by list membership; the other four are pattern matches. */
  predicate IsMembership(op: Operator) {
    op == In || op == NotIn
  }

  /** The fields the resource schema allows. */
  const SchemaFields: seq<string> :=
    ["anpa-category", "urgency", "keywords", "priority", "slugline", "type",
     "source", "headline", "body_html", "genre", "subject"]

  /** One stored or proposed condition. `id` is the storage key, absent on a record
      that has not been stored yet. */
  datatype Condition = Condition(
    id: Option<string>,
    name: string,
    field: string,
    operator: Operator,
    value: string)

  /** The partial record a PATCH carries: only the keys present are replaced. */
  datatype ConditionPatch = ConditionPatch(
    name: Option<string>,
    field: Option<string>,
    operator: Option<Operator>,
    value: Option<string>)

  const NoChange := ConditionPatch(None, None, None, None)

  /** `dict(original)` overlaid with `updates`: every key the patch carries wins,
      every other key (the storage key included) keeps the original's value. */
  function Merge(original: Condition, updates: ConditionPatch): (r: Condition)
    ensures r.id == original.id
    ensures updates.name.Some? ==> r.name == updates.name.value
    ensures updates.name.None? ==> r.name == original.name
    ensures updates.field.Some? ==> r.field == updates.field.value
    ensures updates.field.None? ==> r.field == original.field
    ensures updates.operator.Some? ==> r.operator == updates.operator.value
    ensures updates.operator.None? ==> r.operator == original.operator
    ensures updates.value.Some? ==> r.value == updates.value.value
    ensures updates.value.None? ==> r.value == original.value
  {
    Condition(
      original.id,
      updates.name.GetOr(original.name),
      updates.field.GetOr(original.field),
      updates.operator.GetOr(original.operator),
      updates.value.GetOr(original.value))
  }

  /** An empty patch leaves the record as it was, and applying the same patch twice
      is the same as applying it once. */
  lemma MergeNoChangeAndIdempotent(original: Condition, updates: ConditionPatch)
    ensures Merge(original, NoChange) == original
    ensures Merge(Merge(original, updates), updates) == Merge(original, updates)
  {
  }

  /** The sub-key through which an object-valued article field is compared:
      `anpa-category` by `value`, `genre` by `name`, `subject` by `qcode`. */
  function ObjectKey(field: string): Option<string> {
    if field == "anpa-category" then Some("value")
    else if field == "genre" then Some("name")
    else if field == "subject" then Some("qcode")
    else None
  }

  /** The dotted path a store or search query uses for `field`. */
  function ProjectField(field: string): (r: string)
    ensures ObjectKey(field).Some? ==> r == field + "." + ObjectKey(field).value
    ensures ObjectKey(field).None? ==> r == field
  {
    match ObjectKey(field)
    case Some(key) => field + "." + key
    case None => field
  }

  /** Projection keeps the schema's fields apart: two different schema fields never
      land on the same query path. */
  lemma ProjectFieldInjectiveOnSchema(f: string, g: string)
    requires f in SchemaFields && g in SchemaFields
    requires ProjectField(f) == ProjectField(g)
    ensures f == g
  {
  }
}

=== FILE: elastic.dfy ===
/** Translation of a condition into a search-backend (Elastic) query fragment:
    a `terms` clause for `in`/`nin`, a `query_string` clause for the pattern
    operators. Building the latter overwrites the condition's `field` with
    `"query"`, and the fragment's inner key is taken from the overwritten field. */
module ElasticQuery {
  import opened Text
  import opened Conditions
  import opened Normalise

  /** The value inside a search clause: a list of terms, or a raw string. */
  datatype SearchValue = TermList(values: seq<Value>) | Raw(text: string)

  /** `terms` for the membership operators, `query_string` for the rest. */
  function ElasticOperator(op: Operator): (r: string)
    ensures r == "terms" <==> IsMembership(op)
    ensures r == "query_string" <==> !IsMembership(op)
  {
    if IsMembership(op) then "terms" else "query_string"
  }

  /** The wildcards around the value in a query string. */
  function Wildcarded(op: Operator, value: string): string {
    match op
    case StartsWith => value + "*"
    case EndsWith => "*" + value
    case _ => "*" + value + "*"
  }

  /** `_get_elastic_value`: the clause value, and the condition as the call leaves
      it. For `in`/`nin` the value is the normalised list, except that a comma list
      whose first part is not a number comes back as the raw string (the split is
      computed and dropped). For the pattern operators the value is
      `<field>:<wildcarded value>` and the condition's field becomes `"query"`. */
  function ElasticValue(doc: Condition): (r: (SearchValue, Condition))
    ensures IsMembership(doc.operator) ==> r.1 == doc
    ensures IsMembership(doc.operator) && SplitsOnComma(doc.value) && !IsNumberPart(Split(doc.value, ',')[0]) ==>
      r.0 == Raw(doc.value)
    ensures IsMembership(doc.operator) && !(SplitsOnComma(doc.value) && !IsNumberPart(Split(doc.value, ',')[0])) ==>
      r.0 == TermList(NormaliseList(doc.value))
    ensures !IsMembership(doc.operator) ==>
      r.1 == doc.(field := "query") && r.0 == Raw(doc.field + ":" + Wildcarded(doc.operator, doc.value))
  {
    if IsMembership(doc.operator) then
      if SplitsOnComma(doc.value) then
        var parts := Split(doc.value, ',');
        if IsNumberPart(parts[0]) then (TermList(DigitInts(parts)), doc)
        else (Raw(doc.value), doc)
      else (TermList([StrV(doc.value)]), doc)
    else
      (Raw(doc.field + ":" + Wildcarded(doc.operator, doc.value)), doc.(field := "query"))
  }

  /** The result of `get_elastic_query`: the fragment and the condition as the call
      leaves it. */
  datatype SearchTranslation = SearchTranslation(query: map<string, map<string, SearchValue>>, doc: Condition)

  /** `{operator: {projected field: value}}`, the field projected after the value
      has been built, so pattern clauses are keyed by `"query"`. */
  function GetElasticQuery(doc: Condition): (t: SearchTranslation)
    ensures t.query.Keys == {ElasticOperator(doc.operator)}
    ensures IsMembership(doc.operator) ==>
      t.doc == doc && t.query[ElasticOperator(doc.operator)].Keys == {ProjectField(doc.field)}
    ensures !IsMembership(doc.operator) ==>
      t.doc == doc.(field := "query") && t.query["query_string"].Keys == {"query"}
  {
    var (value, after) := ElasticValue(doc);
    SearchTranslation(map[ElasticOperator(doc.operator) := map[ProjectField(after.field) := value]], after)
  }

  /** Where the search and store translations agree: for `in`/`nin` the terms are
      the store query's normalised list, except for a comma list whose first part is
      not a number, where the search clause holds the raw string. */
  lemma SearchTermsMatchStoreTerms(doc: Condition)
    requires IsMembership(doc.operator)
    ensures var v := GetElasticQuery(doc).query["terms"][ProjectField(doc.field)];
      if SplitsOnComma(doc.value) && !IsNumberPart(Split(doc.value, ',')[0])
      then v == Raw(doc.value)
      else v == TermList(FilterValueFor(doc.operator, doc.value).values)
  {
  }

  /** A pattern condition becomes one `query_string` clause keyed by `"query"`,
      whose text is the unprojected field, a colon, and the value with `*` on both
      sides (`like`, `notlike`), after it (`startswith`) or before it (`endswith`). */
  lemma PatternClause(doc: Condition)
    requires !IsMembership(doc.operator)
    ensures var q := GetElasticQuery(doc).query;
      && (doc.operator == Like || doc.operator == NotLike ==>
            q == map["query_string" := map["query" := Raw(doc.field + ":*" + doc.value + "*")]])
      && (doc.operator == StartsWith ==>
            q == map["query_string" := map["query" := Raw(doc.field + ":" + doc.value + "*")]])
      && (doc.operator == EndsWith ==>
            q == map["query_string" := map["query" := Raw(doc.field + ":*" + doc.value)]])
  {
    var f, v := doc.field, doc.value;
    assert f + ":" + ("*" + v + "*") == f + ":*" + v + "*";
    assert f + ":" + (v + "*") == f + ":" + v + "*";
    assert f + ":" + ("*" + v) == f + ":*" + v;
  }

  /** A pattern clause's query string reads back as the unprojected field, a colon,
      and the wildcarded value, whenever the field name holds no colon. */
  lemma QueryStringReadsBack(doc: Condition)
    requires !IsMembership(doc.operator)
    requires ':' !in doc.field
    ensures var q := GetElasticQuery(doc).query["query_string"]["query"];
      && q.Raw?
      && Find(q.text, ':') == |doc.field|
      && q.text[..|doc.field|] == doc.field
      && q.text[|doc.field| + 1..] == Wildcarded(doc.operator, doc.value)
  {
    var q := GetElasticQuery(doc).query["query_string"]["query"];
    var n := |doc.field|;
    assert q.text == doc.field + [':'] + Wildcarded(doc.operator, doc.value);
    assert q.text[..n] == doc.field;
    assert q.text[n] == ':';
    assert ':' in q.text;
  }

  /** The search fragment does not encode negation: `nin` translates exactly as
      `in`, and `notlike` exactly as `like`. */
  lemma SearchIgnoresNegation(doc: Condition)
    ensures GetElasticQuery(doc.(operator := NotIn)).query == GetElasticQuery(doc.(operator := In)).query
    ensures GetElasticQuery(doc.(operator := NotLike)).query == GetElasticQuery(doc.(operator := Like)).query
  {
    assert ElasticValue(doc.(operator := NotIn)).0 == ElasticValue(doc.(operator := In)).0;
    assert ElasticValue(doc.(operator := NotLike)) == ElasticValue(doc.(operator := Like)).(1 := doc.(operator := NotLike, field := "query"));
  }

  /** Because the call overwrites the condition's field, translating the same
      pattern condition a second time builds its query string from `"query"`
      instead of the original field. */
  lemma SecondTranslationLosesField(doc: Condition)
    requires !IsMembership(doc.operator)
    ensures var again := GetElasticQuery(GetElasticQuery(doc).doc);
      again.query["query_string"]["query"] == Raw("query:" + Wildcarded(doc.operator, doc.value))
  {
  }
}

=== FILE: matching.dfy ===
/** In-memory evaluation of a condition against one article. Articles are JSON-like
    maps; where Python would raise (a missing sub-key, subscripting or iterating
    the wrong kind of value, matching a pattern against a non-string) the
    evaluation yields an error. */
module Matching {
  import opened Results
  import opened Text
  import opened Conditions
  import opened Normalise
  import opened MongoQuery

  /** A JSON value as stored in an article. */
  datatype Json =
    | JNull
    | JBool(b: bool)
    | JInt(i: int)
    | JStr(s: string)
    | JList(items: seq<Json>)
    | JObj(fields: map<string, Json>)

  type Article = map<string, Json>

  /** The Python exception an evaluation raises. */
  datatype EvalError = KeyError(key: string) | TypeError

  /** Python `v == t` between an article value and a normalised term: ints equal
      equal ints, `True`/`False` equal 1/0, strings equal equal strings, and
      nothing else is equal. */
  predicate PyEq(v: Json, t: Value) {
    match v
    case JInt(i) => t.IntV? && t.i == i
    case JBool(b) => t.IntV? && t.i == (if b then 1 else 0)
    case JStr(s) => t.StrV? && t.s == s
    case _ => false
  }

  /** Python `v in terms`. */
  predicate PyIn(v: Json, terms: seq<Value>): (b: bool)
    ensures b ==> v.JInt? || v.JBool? || v.JStr?
    ensures v.JStr? ==> (b <==> StrV(v.s) in terms)
    ensures v.JInt? ==> (b <==> IntV(v.i) in terms)
  {
    exists k :: 0 <= k < |terms| && PyEq(v, terms[k])
  }

  /** `v[key]` */
  function Subscript(v: Json, key: string): (r: Result<Json, EvalError>)
    ensures r.Ok? <==> v.JObj? && key in v.fields
    ensures r.Ok? ==> r.value == v.fields[key]
    ensures r.Err? ==> r.error == (if v.JObj? then KeyError(key) else TypeError)
  {
    match v
    case JObj(m) => if key in m then Ok(m[key]) else Err(KeyError(key))
    case _ => Err(TypeError)
  }

  /** `[x[key] for x in items]`: the first item that cannot be subscripted decides
      the error. */
  function SubscriptEach(items: seq<Json>, key: string): (r: Result<seq<Json>, EvalError>)
    ensures r.Ok? <==> forall i :: 0 <= i < |items| ==> items[i].JObj? && key in items[i].fields
    ensures r.Ok? ==> |r.value| == |items| && forall i :: 0 <= i < |items| ==> r.value[i] == items[i].fields[key]
    ensures r.Err? ==>
      exists i :: 0 <= i < |items| && Subscript(items[i], key) == Err(r.error) && (forall j :: 0 <= j < i ==> Subscript(items[j], key).Ok?)
  {
    if |items| == 0 then Ok([])
    else
      match Subscript(items[0], key)
      case Err(e) => Err(e)
      case Ok(x) =>
        match SubscriptEach(items[1..], key)
        case Err(e) =>
          assert forall i :: 1 <= i < |items| ==> items[i] == items[1..][i - 1];
          Err(e)
        case Ok(xs) =>
          assert forall i :: 1 <= i < |items| ==> items[i] == items[1..][i - 1];
          Ok([x] + xs)
  }

  /** `[x[key] for x in v]`: a list is iterated item by item; iterating an empty
      string or dict yields nothing; iterating a non-empty string or dict yields
      strings, which cannot be subscripted by a string; the other values are not
      iterable. */
  function ProjectEach(v: Json, key: string): (r: Result<Json, EvalError>)
    ensures r.Ok? ==> r.value.JList?
    ensures v.JList? ==> r == (match SubscriptEach(v.items, key)
                               case Ok(xs) => Ok(JList(xs))
                               case Err(e) => Err(e))
    ensures !v.JList? ==> r.Ok? == (v == JStr([]) || v == JObj(map[]))
    ensures !v.JList? && r.Ok? ==> r == Ok(JList([]))
  {
    match v
    case JList(items) =>
      (match SubscriptEach(items, key)
       case Ok(xs) => Ok(JList(xs))
       case Err(e) => Err(e))
    case JStr(s) => if |s| == 0 then Ok(JList([])) else Err(TypeError)
    case JObj(m) => if |m| == 0 then Ok(JList([])) else Err(TypeError)
    case _ => Err(TypeError)
  }

  /** `_get_field_value`: the article's value for the field, projected through the
      field's sub-key — one object for `anpa-category`, a list of objects for
      `genre` and `subject` — and taken as it is for every other field. */
  function FieldValue(field: string, article: Article): (r: Result<Json, EvalError>)
    requires field in article
    ensures ObjectKey(field).None? ==> r == Ok(article[field])
    ensures field == "anpa-category" ==> r == Subscript(article[field], "value")
    ensures ObjectKey(field).Some? && field != "anpa-category" ==>
      r == ProjectEach(article[field], ObjectKey(field).value)
    ensures (field == "genre" || field == "subject") && r.Ok? ==> r.value.JList?
  {
    if field == "anpa-category" then Subscript(article[field], "value")
    else if field == "genre" then ProjectEach(article[field], "name")
    else if field == "subject" then ProjectEach(article[field], "qcode")
    else Ok(article[field])
  }

  /** `_run_filter`: membership for `in`/`nin` (any / no element of a list value),
      a pattern match for the others, which raises unless the value is a string. */
  function RunFilter(articleValue: Json, op: Operator, filterValue: FilterValue): (r: Result<bool, EvalError>)
    requires filterValue.Terms? <==> IsMembership(op)
    ensures r.Err? <==> !IsMembership(op) && !articleValue.JStr?
  {
    match op
    case In =>
      if articleValue.JList? then Ok(exists i :: 0 <= i < |articleValue.items| && PyIn(articleValue.items[i], filterValue.values))
      else Ok(PyIn(articleValue, filterValue.values))
    case NotIn =>
      if articleValue.JList? then Ok(forall i :: 0 <= i < |articleValue.items| ==> !PyIn(articleValue.items[i], filterValue.values))
      else Ok(!PyIn(articleValue, filterValue.values))
    case NotLike =>
      if articleValue.JStr? then Ok(!Matches(filterValue.pattern, articleValue.s)) else Err(TypeError)
    case _ =>
      if articleValue.JStr? then Ok(Matches(filterValue.pattern, articleValue.s)) else Err(TypeError)
  }

  /** `does_match`. A missing field satisfies exactly the negative operators `nin`
      and `notlike`; otherwise the projected value is compared with the normalised
      condition value, and the evaluation fails only when the projection fails or a
      pattern operator meets a value that is not a string. */
  function DoesMatch(c: Condition, article: Article): (r: Result<bool, EvalError>)
    ensures c.field !in article ==> r == Ok(c.operator == NotIn || c.operator == NotLike)
    ensures r.Err? <==> (c.field in article &&
      (FieldValue(c.field, article).Err? || (!IsMembership(c.operator) && !FieldValue(c.field, article).value.JStr?)))
    ensures c.field in article && FieldValue(c.field, article).Err? ==> r == Err(FieldValue(c.field, article).error)
    ensures c.field in article && FieldValue(c.field, article).Ok? && r.Err? ==> r == Err(TypeError)
  {
    if c.field !in article then Ok(c.operator == NotIn || c.operator == NotLike)
    else
      match FieldValue(c.field, article)
      case Err(e) => Err(e)
      case Ok(v) => RunFilter(v, c.operator, FilterValueFor(c.operator, c.value))
  }

  /** The result of the negated operator. */
  function Negated(r: Result<bool, EvalError>): Result<bool, EvalError> {
    match r
    case Ok(b) => Ok(!b)
    case Err(e) => Err(e)
  }

  /** `nin` is exactly the negation of `in`, present field or not. */
  lemma NotInNegatesIn(c: Condition, article: Article)
    ensures DoesMatch(c.(operator := NotIn), article) == Negated(DoesMatch(c.(operator := In), article))
  {
  }

  /** `notlike` is exactly the negation of `like`, present field or not. */
  lemma NotLikeNegatesLike(c: Condition, article: Article)
    ensures DoesMatch(c.(operator := NotLike), article) == Negated(DoesMatch(c.(operator := Like), article))
  {
  }

  /** `endswith` evaluates exactly as `like` on every article. */
  lemma EndsWithEvaluatesAsLike(c: Condition, article: Article)
    ensures DoesMatch(c.(operator := EndsWith), article) == DoesMatch(c.(operator := Like), article)
  {
    if c.field in article && FieldValue(c.field, article).Ok? && FieldValue(c.field, article).value.JStr? {
      EndsWithMatchesLikeLike(c.value, FieldValue(c.field, article).value.s);
    }
  }

  /** The term a value equals under Python `==`, if any: an independent statement
      of `PyEq`. */
  function AsTerm(v: Json): Option<Value> {
    match v
    case JInt(i) => Some(IntV(i))
    case JBool(b) => Some(IntV(if b then 1 else 0))
    case JStr(s) => Some(StrV(s))
    case _ => None
  }

  /** `like` on a string value is a caseless search for the value, starting at a
      position with no newline before it. */
  lemma LikeIsContainsTest(c: Condition, article: Article)
    requires c.operator == Like && c.field in article && FieldValue(c.field, article).Ok?
    requires FieldValue(c.field, article).value.JStr?
    ensures DoesMatch(c, article) == Ok(exists k :: FoundAt(c.value, FieldValue(c.field, article).value.s, k))
  {
    LikeFindsValue(c.value, FieldValue(c.field, article).value.s);
  }

  lemma PyInIsTermMembership(v: Json, terms: seq<Value>)
    ensures PyIn(v, terms) <==> AsTerm(v).Some? && AsTerm(v).value in terms
  {
    if AsTerm(v).Some? && AsTerm(v).value in terms {
      var k :| 0 <= k < |terms| && terms[k] == AsTerm(v).value;
      assert PyEq(v, terms[k]);
    }
  }

  /** `in` against a list value holds exactly when some element of the list equals
      one of the normalised terms; against any other value, when that value does. */
  lemma InMeansSharedTerm(c: Condition, article: Article)
    requires c.operator == In && c.field in article && FieldValue(c.field, article).Ok?
    ensures var v := FieldValue(c.field, article).value;
      var terms := NormaliseList(c.value);
      DoesMatch(c, article) == Ok(
        if v.JList? then exists i :: 0 <= i < |v.items| && AsTerm(v.items[i]).Some? && AsTerm(v.items[i]).value in terms
        else AsTerm(v).Some? && AsTerm(v).value in terms)
  {
    var v := FieldValue(c.field, article).value;
    var terms := NormaliseList(c.value);
    PyInIsTermMembership(v, terms);
    if v.JList? {
      forall i | 0 <= i < |v.items|
        ensures PyIn(v.items[i], terms) <==> AsTerm(v.items[i]).Some? && AsTerm(v.items[i]).value in terms
      {
        PyInIsTermMembership(v.items[i], terms);
      }
    }
  }

  /** `startswith` on a string value is a case-insensitive prefix test. */
  lemma StartsWithIsPrefixTest(c: Condition, article: Article)
    requires c.operator == StartsWith && c.field in article
    requires FieldValue(c.field, article).Ok? && FieldValue(c.field, article).value.JStr?
    ensures DoesMatch(c, article) == Ok(Lower(c.value) <= Lower(FieldValue(c.field, article).value.s))
  {
  }

  /** The in-memory evaluation tests exactly the normalised value that the store
      query embeds for the same condition. */
  lemma EvaluatesStoreValue(c: Condition, article: Article)
    requires c.field in article && FieldValue(c.field, article).Ok?
    ensures DoesMatch(c, article) == RunFilter(FieldValue(c.field, article).value, c.operator, StoreValue(c))
  {
  }
}

=== FILE: mongo.dfy ===
/** Translation of a condition into a document-store (Mongo) query fragment
    `{projected field: {operator: normalised value}}`. */
module MongoQuery {
  import opened Conditions
  import opened Normalise

  /** `$regex` for the three positive pattern operators, `$not` for `notlike`, and
      `$` followed by the operator's name for `in` and `nin`. */
  function MongoOperator(op: Operator): (r: string)
    ensures r == "$regex" <==> op == Like || op == StartsWith || op == EndsWith
    ensures r == "$not" <==> op == NotLike
    ensures IsMembership(op) ==> r == "$" + OperatorName(op)
  {
    if op == Like || op == StartsWith || op == EndsWith then "$regex"
    else if op == NotLike then "$not"
    else
      assert "$" + OperatorName(In) == "$in" && "$" + OperatorName(NotIn) == "$nin";
      "$" + OperatorName(op)
  }

  /** Two operators share a store operator only when both are positive pattern
      operators; the store query tells `in`, `nin` and `notlike` apart from
      everything else. */
  lemma MongoOperatorSeparates(a: Operator, b: Operator)
    requires MongoOperator(a) == MongoOperator(b)
    ensures a == b || (MongoOperator(a) == "$regex" && !IsMembership(a) && !IsMembership(b))
  {
    MongoMembershipOperators();
  }

  lemma MongoMembershipOperators()
    ensures MongoOperator(In) == "$in"
    ensures MongoOperator(NotIn) == "$nin"
  {
    assert "$" + OperatorName(In) == "$in";
    assert "$" + OperatorName(NotIn) == "$nin";
  }

  type StoreQuery = map<string, map<string, FilterValue>>

  /** The fragment has one key, the projected field, holding one operator, whose
      value is the normalised form of the condition's value. */
  function GetMongoQuery(doc: Condition): (q: StoreQuery)
    ensures q.Keys == {ProjectField(doc.field)}
    ensures q[ProjectField(doc.field)].Keys == {MongoOperator(doc.operator)}
    ensures q[ProjectField(doc.field)][MongoOperator(doc.operator)] == FilterValueFor(doc.operator, doc.value)
  {
    map[ProjectField(doc.field) := map[MongoOperator(doc.operator) := FilterValueFor(doc.operator, doc.value)]]
  }

  /** The value the store query embeds for a condition. */
  function StoreValue(doc: Condition): FilterValue {
    GetMongoQuery(doc)[ProjectField(doc.field)][MongoOperator(doc.operator)]
  }

  /** Negation lives in the operator key alone: `nin` carries the very terms `in`
      does, and `notlike` the very pattern `like` does. */
  lemma MongoNegationKeepsValue(doc: Condition)
    ensures GetMongoQuery(doc.(operator := NotIn)) ==
      map[ProjectField(doc.field) := map["$nin" := StoreValue(doc.(operator := In))]]
    ensures GetMongoQuery(doc.(operator := NotLike)) ==
      map[ProjectField(doc.field) := map["$not" := StoreValue(doc.(operator := Like))]]
    ensures GetMongoQuery(doc.(operator := In)) ==
      map[ProjectField(doc.field) := map["$in" := StoreValue(doc.(operator := In))]]
  {
    MongoMembershipOperators();
  }
}

=== FILE: normalise.dfy ===
/** Value normalisation: the raw string `value` of a condition becomes either a list
    of terms (for `in` / `nin`) or a case-insensitive pattern (for the other four
    operators). Patterns are modelled by their shape, not as general regular
    expressions: the value is taken to be a literal without metacharacters. */
module Normalise {
  import opened Text
  import opened Conditions

  /** A normalised term: Python `int` or `str`. The two never compare equal. */
  datatype Value = IntV(i: int) | StrV(s: string)

  /** `value.find(',') > 0`: a comma somewhere, the first one not at index 0. */
  predicate SplitsOnComma(value: string) {
    Find(value, ',') > 0
  }

  lemma SplitsOnCommaMeaning(value: string)
    ensures SplitsOnComma(value) <==> ',' in value && value[0] != ','
  {
  }

  /** `x.strip().isdigit()` */
  predicate IsNumberPart(x: string) {
    IsDigits(Strip(x))
  }

  /** The numeric branch: `[int(x) for x in parts if x.strip().isdigit()]`. */
  function DigitInts(parts: seq<string>): (r: seq<Value>)
    ensures |r| <= |parts|
    ensures forall v :: v in r ==> v.IntV? && v.i >= 0
  {
    if |parts| == 0 then []
    else
      var rest := DigitInts(parts[1..]);
      if IsNumberPart(parts[0]) then [IntV(ParseInt(parts[0]))] + rest else rest
  }

  /** The numeric branch holds exactly the values of the parts that are numbers. */
  lemma {:induction false} DigitIntsMembers(parts: seq<string>)
    ensures forall n :: IntV(n) in DigitInts(parts) <==>
      exists x :: x in parts && IsNumberPart(x) && ParseInt(x) == n
  {
    if |parts| > 0 {
      DigitIntsMembers(parts[1..]);
      assert parts == [parts[0]] + parts[1..];
    }
  }

  /** The numeric branch keeps the order of the parts: it distributes over
      concatenation, one part at a time. */
  lemma {:induction false} DigitIntsAppend(a: seq<string>, b: seq<string>)
    ensures DigitInts(a + b) == DigitInts(a) + DigitInts(b)
  {
    if |a| > 0 {
      assert (a + b)[0] == a[0];
      assert (a + b)[1..] == a[1..] + b;
      DigitIntsAppend(a[1..], b);
    } else {
      assert a + b == b;
    }
  }

  /** The string branch: the split parts, as they are. */
  function AsStrings(parts: seq<string>): (r: seq<Value>)
    ensures |r| == |parts|
    ensures forall i :: 0 <= i < |parts| ==> r[i] == StrV(parts[i])
  {
    seq(|parts|, i requires 0 <= i < |parts| => StrV(parts[i]))
  }

  /** The texts of a list of string terms. */
  function Texts(r: seq<Value>): (t: seq<string>)
    requires forall i :: 0 <= i < |r| ==> r[i].StrV?
    ensures |t| == |r|
    ensures forall i :: 0 <= i < |r| ==> StrV(t[i]) == r[i]
  {
    seq(|r|, i requires 0 <= i < |r| => r[i].s)
  }

  /** The list branch of normalisation, used for `in` and `nin`.
      - no comma after index 0: the one-element list of the raw value;
      - the stripped first part is all digits: the non-negative integers of the
        parts that are all digits once stripped, the other parts dropped;
      - otherwise the untrimmed parts, one per comma plus one, which join back
        into the raw value. */
  function NormaliseList(value: string): (r: seq<Value>)
    ensures !SplitsOnComma(value) ==> r == [StrV(value)]
    ensures SplitsOnComma(value) && IsNumberPart(Split(value, ',')[0]) ==>
      && |r| <= multiset(value)[','] + 1
      && (forall v :: v in r ==> v.IntV? && v.i >= 0)
    ensures SplitsOnComma(value) && !IsNumberPart(Split(value, ',')[0]) ==>
      && |r| == multiset(value)[','] + 1
      && (forall k :: 0 <= k < |r| ==> r[k].StrV? && ',' !in r[k].s)
      && Join(Texts(r), ',') == value
  {
    if SplitsOnComma(value) then
      var parts := Split(value, ',');
      if IsNumberPart(parts[0]) then DigitInts(parts)
      else
        var r := AsStrings(parts);
        assert Texts(r) == parts;
        r
    else [StrV(value)]
  }

  /** In the numeric branch an integer is a term exactly when some comma-separated
      part, stripped, is all digits and denotes it. */
  lemma NumericBranchMembers(value: string)
    requires SplitsOnComma(value) && IsNumberPart(Split(value, ',')[0])
    ensures forall n :: IntV(n) in NormaliseList(value) <==>
      exists x :: x in Split(value, ',') && IsNumberPart(x) && ParseInt(x) == n
  {
    DigitIntsMembers(Split(value, ','));
  }

  /** How a pattern starts: `^` (at the start of the subject) or `.*` (after any run
      of characters other than a newline). */
  datatype Anchor = AtStart | AfterAnyRun

  /** A compiled case-insensitive pattern: an anchor, a literal, and whether the
      source ends in `.*`. */
  datatype Pattern = Pattern(anchor: Anchor, literal: string, anySuffix: bool)

  /** The regular-expression text the pattern was compiled from. */
  function PatternSource(p: Pattern): string {
    (if p.anchor == AtStart then "^" else ".*") + p.literal + (if p.anySuffix then ".*" else "")
  }

  /** The subject starts with the literal, ignoring letter case. */
  predicate CaselessPrefix(literal: string, subject: string) {
    Lower(literal) <= Lower(subject)
  }

  /** `.*literal` matched at the start of `subject`: the literal follows some run of
      characters that are not newlines. */
  predicate MatchesAfterRun(literal: string, subject: string)
    decreases |subject|
  {
    CaselessPrefix(literal, subject) ||
    (|subject| > 0 && subject[0] != '\n' && MatchesAfterRun(literal, subject[1..]))
  }

  /** `pattern.match(subject)` with `re.IGNORECASE`: the match is anchored at the
      start of the subject but not at its end, so a trailing `.*` adds nothing.
      The literal is found, ignoring case, with no newline before it, and at the
      very start when the pattern begins with `^`. */
  predicate Matches(p: Pattern, subject: string): (b: bool)
    ensures b <==> exists k :: FoundAt(p.literal, subject, k) && (p.anchor == AtStart ==> k == 0)
  {
    MatchesAfterRunMeaning(p.literal, subject);
    assert subject[0..] == subject && subject[..0] == [];
    assert FoundAt(p.literal, subject, 0) <==> CaselessPrefix(p.literal, subject);
    match p.anchor
    case AtStart => CaselessPrefix(p.literal, subject)
    case AfterAnyRun => MatchesAfterRun(p.literal, subject)
  }

  /** The literal occurs, ignoring case, at position `k` of `subject`, and no newline
      comes before it. */
  predicate FoundAt(literal: string, subject: string, k: int) {
    0 <= k <= |subject| && '\n' !in subject[..k] && CaselessPrefix(literal, subject[k..])
  }

  lemma {:induction false} FoundAtMatches(literal: string, subject: string, k: int)
    requires FoundAt(literal, subject, k)
    ensures MatchesAfterRun(literal, subject)
    decreases k
  {
    if k > 0 {
      assert subject[0] == subject[..k][0];
      assert subject[1..][..k - 1] == subject[1..k];
      assert subject[1..][k - 1..] == subject[k..];
      FoundAtMatches(literal, subject[1..], k - 1);
    }
  }

  lemma {:induction false} MatchFoundAt(literal: string, subject: string) returns (k: int)
    requires MatchesAfterRun(literal, subject)
    ensures FoundAt(literal, subject, k)
    decreases |subject|
  {
    if CaselessPrefix(literal, subject) {
      k := 0;
      assert subject[0..] == subject;
    } else {
      var j := MatchFoundAt(literal, subject[1..]);
      FoundAtShift(literal, subject, j);
      k := j + 1;
    }
  }

  /** An occurrence in the tail is one position further on in the whole subject,
      when the first character is not a newline. */
  lemma FoundAtShift(literal: string, subject: string, j: int)
    requires |subject| > 0 && subject[0] != '\n'
    requires FoundAt(literal, subject[1..], j)
    ensures FoundAt(literal, subject, j + 1)
  {
    assert subject[..j + 1] == [subject[0]] + subject[1..][..j];
    assert subject[j + 1..] == subject[1..][j..];
  }

  /** `.*literal` matches exactly when the literal occurs, ignoring case, at a
      position that no newline precedes. */
  lemma MatchesAfterRunMeaning(literal: string, subject: string)
    ensures MatchesAfterRun(literal, subject) <==> exists k :: FoundAt(literal, subject, k)
  {
    if MatchesAfterRun(literal, subject) {
      var k := MatchFoundAt(literal, subject);
    }
    if k :| FoundAt(literal, subject, k) {
      FoundAtMatches(literal, subject, k);
    }
  }

  /** The normalised form `_get_mongo_value` gives a condition's value: terms for
      `in`/`nin`, otherwise the pattern compiled from `^v`, `.*v.*` or `.*v`. */
  datatype FilterValue = Terms(values: seq<Value>) | Regex(pattern: Pattern)

  function FilterValueFor(op: Operator, value: string): (r: FilterValue)
    ensures r.Terms? <==> IsMembership(op)
    ensures r.Terms? ==> r.values == NormaliseList(value)
    ensures r.Regex? ==> r.pattern.literal == value
    ensures op == StartsWith ==> PatternSource(r.pattern) == "^" + value
    ensures op == Like || op == NotLike ==> PatternSource(r.pattern) == ".*" + value + ".*"
    ensures op == EndsWith ==> PatternSource(r.pattern) == ".*" + value
  {
    match op
    case StartsWith => Regex(Pattern(AtStart, value, false))
    case Like => Regex(Pattern(AfterAnyRun, value, true))
    case NotLike => Regex(Pattern(AfterAnyRun, value, true))
    case EndsWith => Regex(Pattern(AfterAnyRun, value, false))
    case In => Terms(NormaliseList(value))
    case NotIn => Terms(NormaliseList(value))
  }

  /** `startswith` is a case-insensitive prefix test. */
  lemma StartsWithIsCaselessPrefix(value: string, subject: string)
    ensures Matches(FilterValueFor(StartsWith, value).pattern, subject) <==>
      |value| <= |subject| && Lower(value) == Lower(subject[..|value|])
  {
  }

  /** `like` (and `notlike`, which negates it) looks for the value, ignoring case,
      starting at a position with no newline before it. */
  lemma LikeFindsValue(value: string, subject: string)
    ensures Matches(FilterValueFor(Like, value).pattern, subject) <==>
      exists k :: FoundAt(value, subject, k)
  {
    MatchesAfterRunMeaning(value, subject);
  }

  /** `endswith` compiles `.*v` without an end anchor and is applied with
      `re.match`, so it accepts exactly the subjects `like` accepts: a contains
      test, not a suffix test. */
  lemma EndsWithMatchesLikeLike(value: string, subject: string)
    ensures Matches(FilterValueFor(EndsWith, value).pattern, subject) ==
            Matches(FilterValueFor(Like, value).pattern, subject)
  {
  }

  /** A subject that does not end with the value can still pass `endswith`. */
  lemma EndsWithAcceptsNonSuffix()
    ensures Matches(FilterValueFor(EndsWith, "view").pattern, "Viewpoint")
    ensures !(Lower("Viewpoint")[|"Viewpoint"| - |"view"|..] == Lower("view"))
  {
    assert CaselessPrefix("view", "Viewpoint") by {
      assert Lower("view") == "view";
      assert Lower("Viewpoint")[..4] == "view";
    }
    assert Lower("Viewpoint")[5..] == "oint";
  }
}

=== FILE: results.dfy ===
/** The result types used throughout the model: an optional value,
    a value-or-error result for the in-memory evaluator, and a pass/fail outcome for
    validation (the service raises a bad-request error where this model returns `Fail`). */
module Results {

  datatype Option<+T> = None | Some(value: T) {

    /** The wrapped value, or `default` when there is none. */
    function GetOr(default: T): T {
      match this
      case Some(v) => v
      case None => default
    }
  }

  datatype Result<+T, +E> = Ok(value: T) | Err(error: E)

  datatype Outcome<+E> = Pass | Fail(error: E)
}

=== FILE: scenarios.dfy ===
/** Worked examples: particular conditions and articles, with the outcome the
    engine gives them. */
module Scenarios {
  import opened Results
  import opened Text
  import opened Conditions
  import opened Catalogue
  import opened Validation
  import opened Normalise
  import opened MongoQuery
  import opened ElasticQuery
  import opened Matching

  function Rule(field: string, op: Operator, value: string): Condition {
    Condition(None, "rule", field, op, value)
  }

  /** A run of digits is a number part, and `int` reads its decimal value. */
  lemma DigitsArePart(d: string)
    requires IsDigits(d)
    ensures IsNumberPart(d) && ParseInt(d) == DigitsValue(d)
    ensures ',' !in d
  {
    assert !IsSpace(d[0]) && !IsDigit(',');
    assert !IsSpace(d[|d| - 1]);
  }

  /** A part with no white space at its ends that starts with something other
      than a digit is not a number part. */
  lemma WordIsNotPart(w: string)
    requires |w| > 0 && !IsSpace(w[0]) && !IsSpace(w[|w| - 1]) && !IsDigit(w[0])
    ensures !IsNumberPart(w)
  {
    assert Strip(w) == w;
  }

  /** A value led by a run of digits and a comma takes the numeric branch: the
      leading number, then the numbers among the parts of the rest. */
  lemma NumberLed(a: string, rest: string)
    requires IsDigits(a)
    ensures NormaliseList(a + [','] + rest) == [IntV(DigitsValue(a))] + DigitInts(Split(rest, ','))
  {
    DigitsArePart(a);
    SplitPeel(a, ',', rest);
    var parts := [a] + Split(rest, ',');
    assert parts[0] == a && parts[1..] == Split(rest, ',');
  }

  lemma AsStringsCons(w: string, parts: seq<string>)
    ensures AsStrings([w] + parts) == [StrV(w)] + AsStrings(parts)
  {
    var l, r := AsStrings([w] + parts), [StrV(w)] + AsStrings(parts);
    assert |l| == |r|;
    forall i | 0 <= i < |l|
      ensures l[i] == r[i]
    {
      if i > 0 {
        assert ([w] + parts)[i] == parts[i - 1];
      }
    }
  }

  /** A value led by a comma-free part that is not a number takes the string
      branch: that part, then the parts of the rest, all as they are. */
  lemma WordLed(w: string, rest: string)
    requires |w| > 0 && ',' !in w && !IsNumberPart(w)
    ensures NormaliseList(w + [','] + rest) == [StrV(w)] + AsStrings(Split(rest, ','))
  {
    SplitPeel(w, ',', rest);
    AsStringsCons(w, Split(rest, ','));
  }

  /** A part that is a run of digits, alone, gives its value. */
  lemma OneNumber(b: string)
    requires IsDigits(b)
    ensures DigitInts(Split(b, ',')) == [IntV(DigitsValue(b))]
  {
    DigitsArePart(b);
    assert Split(b, ',') == [b];
  }

  /** A comma list of numbers becomes the list of their values, so leading zeros
      are dropped. */
  lemma NumbersBecomeIntegers(a: string, b: string)
    requires IsDigits(a) && IsDigits(b)
    ensures NormaliseList(a + [','] + b) == [IntV(DigitsValue(a)), IntV(DigitsValue(b))]
  {
    NumberLed(a, b);
    OneNumber(b);
  }

  /** A part that is not a number, then a run of digits, gives that number alone. */
  lemma WordThenNumber(w: string, b: string)
    requires IsDigits(b) && ',' !in w && !IsNumberPart(w)
    ensures DigitInts(Split(w + [','] + b, ',')) == [IntV(DigitsValue(b))]
  {
    SplitPeel(w, ',', b);
    OneNumber(b);
    var parts := [w] + Split(b, ',');
    assert parts[0] == w && parts[1..] == Split(b, ',');
  }

  /** The first part alone picks the numeric branch; a later part that is not a
      number is dropped. */
  lemma LaterWordsDropped(a: string, w: string, b: string)
    requires IsDigits(a) && IsDigits(b) && ',' !in w && !IsNumberPart(w)
    ensures NormaliseList(a + [','] + (w + [','] + b)) == [IntV(DigitsValue(a)), IntV(DigitsValue(b))]
  {
    NumberLed(a, w + [','] + b);
    WordThenNumber(w, b);
  }

  /** No comma, or a comma only in first position, leaves the raw value as the
      single term; the empty value is no exception. */
  lemma SingleTerm()
    ensures NormaliseList("") == [StrV("")]
    ensures NormaliseList("Sport") == [StrV("Sport")]
    ensures NormaliseList(",a,b") == [StrV(",a,b")]
  {
    assert Find("Sport", ',') == -1;
  }

  /** `"1,a,3"` gives the integers 1 and 3. */
  lemma OneAThree()
    ensures NormaliseList("1,a,3") == [IntV(1), IntV(3)]
  {
    var value := "1,a,3";
    assert value == "1" + [','] + ("a" + [','] + "3") by {
      assert |value| == 5 && value[1] == ',' && value[3] == ',';
    }
    assert DigitsValue("1") == 1 by { assert "1"[..0] == ""; }
    assert DigitsValue("3") == 3 by { assert "3"[..0] == ""; }
    WordIsNotPart("a");
    LaterWordsDropped("1", "a", "3");
  }

  /** The value a one-genre article offers the matcher: the list of that genre's
      name. */
  lemma OneGenre(g: Json)
    requires g.JObj? && "name" in g.fields
    ensures FieldValue("genre", map["genre" := JList([g])]) == Ok(JList([g.fields["name"]]))
  {
    assert |"genre"| != |"anpa-category"|;
    assert SubscriptEach([g], "name") == Ok([g.fields["name"]]) by {
      assert Subscript(g, "name") == Ok(g.fields["name"]);
      assert [g][1..] == [];
      assert SubscriptEach([], "name") == Ok([]);
      assert [g.fields["name"]] + [] == [g.fields["name"]];
    }
  }

  /** `in` holds for a one-element list value whose string is among the terms. */
  lemma InHitsListedString(c: Condition, article: Article, x: string)
    requires c.operator == In && c.field in article
    requires FieldValue(c.field, article) == Ok(JList([JStr(x)]))
    requires StrV(x) in NormaliseList(c.value)
    ensures DoesMatch(c, article) == Ok(true)
  {
    var terms := NormaliseList(c.value);
    var k :| 0 <= k < |terms| && terms[k] == StrV(x);
    assert PyEq(JStr(x), terms[k]);
    assert PyIn(JList([JStr(x)]).items[0], terms);
  }

  /** Two comma-separated parts, the first not a number, are two string terms:
      the second stays a string even when it is a number, and keeps its white
      space. */
  lemma TwoWords(w: string, other: string)
    requires |w| > 0 && ',' !in w && !IsNumberPart(w) && ',' !in other
    ensures NormaliseList(w + [','] + other) == [StrV(w), StrV(other)]
  {
    WordLed(w, other);
    assert Split(other, ',') == [other];
    AsStringsCons(other, []);
  }

  /** A genre list is matched through each genre's name: an article whose one
      genre is named like the first of the listed words passes `in`. */
  lemma GenreByName(c: Condition, other: string, g: Json)
    requires c.field == "genre" && c.operator == In
    requires |c.value| > 0 && ',' !in c.value && !IsNumberPart(c.value) && ',' !in other
    requires g.JObj? && "name" in g.fields && g.fields["name"] == JStr(c.value)
    ensures DoesMatch(c.(value := c.value + [','] + other), map["genre" := JList([g])]) == Ok(true)
  {
    TwoWords(c.value, other);
    OneGenre(g);
    InHitsListedString(c.(value := c.value + [','] + other), map["genre" := JList([g])], c.value);
  }

  /** `startswith` ignores letter case. */
  lemma SluglinePrefix()
    ensures DoesMatch(Rule("slugline", StartsWith, "PM-"), map["slugline" := JStr("pm-budget")]) == Ok(true)
  {
    assert Lower("PM-") == "pm-";
    assert Lower("pm-budget")[..3] == "pm-";
  }

  /** A value without a comma is one string term and equals no integer. */
  lemma SingleValueStaysString(c: Condition, n: int)
    requires ObjectKey(c.field).None? && c.operator == In && ',' !in c.value
    ensures DoesMatch(c, map[c.field := JInt(n)]) == Ok(false)
  {
    assert NormaliseList(c.value) == [StrV(c.value)];
    assert !PyIn(JInt(n), [StrV(c.value)]);
  }

  /** A string equals no integer term. */
  lemma StringNotAmongIntegers(s: string, terms: seq<Value>)
    requires forall k :: 0 <= k < |terms| ==> terms[k].IntV?
    ensures !PyIn(JStr(s), terms)
  {
  }

  /** `in` holds for an integer value that is among the terms. */
  lemma InHitsInteger(c: Condition, article: Article, n: int)
    requires c.operator == In && c.field in article
    requires FieldValue(c.field, article) == Ok(JInt(n))
    requires IntV(n) in NormaliseList(c.value)
    ensures DoesMatch(c, article) == Ok(true)
  {
    var terms := NormaliseList(c.value);
    var k :| 0 <= k < |terms| && terms[k] == IntV(n);
    assert PyEq(JInt(n), terms[k]);
  }

  /** `in` fails for a string value when every term is an integer. */
  lemma InMissesStringAmongIntegers(c: Condition, article: Article, x: string)
    requires c.operator == In && c.field in article
    requires FieldValue(c.field, article) == Ok(JStr(x))
    requires forall k :: 0 <= k < |NormaliseList(c.value)| ==> NormaliseList(c.value)[k].IntV?
    ensures DoesMatch(c, article) == Ok(false)
  {
    StringNotAmongIntegers(x, NormaliseList(c.value));
  }

  /** A comma list of numbers matches the integer the first of them denotes. */
  lemma NumberListMatchesInteger(c: Condition, a: string, b: string)
    requires ObjectKey(c.field).None? && c.operator == In
    requires IsDigits(a) && IsDigits(b) && c.value == a + [','] + b
    ensures DoesMatch(c, map[c.field := JInt(DigitsValue(a))]) == Ok(true)
  {
    NumbersBecomeIntegers(a, b);
    InHitsInteger(c, map[c.field := JInt(DigitsValue(a))], DigitsValue(a));
  }

  /** A comma list of numbers does not match a number spelt as a string. */
  lemma NumberListMissesString(c: Condition, a: string, b: string)
    requires ObjectKey(c.field).None? && c.operator == In
    requires IsDigits(a) && IsDigits(b) && c.value == a + [','] + b
    ensures DoesMatch(c, map[c.field := JStr(a)]) == Ok(false)
  {
    NumbersBecomeIntegers(a, b);
    InMissesStringAmongIntegers(c, map[c.field := JStr(a)], a);
  }

  /** A missing field satisfies `nin` and `notlike` and nothing else. */
  lemma MissingField()
    ensures DoesMatch(Rule("urgency", In, "3"), map[]) == Ok(false)
    ensures DoesMatch(Rule("urgency", NotIn, "3"), map[]) == Ok(true)
    ensures DoesMatch(Rule("headline", NotLike, "x"), map[]) == Ok(true)
    ensures DoesMatch(Rule("headline", Like, "x"), map[]) == Ok(false)
  {
  }

  /** A pattern operator on a list-valued field raises instead of answering. */
  lemma PatternOnListRaises()
    ensures DoesMatch(Rule("keywords", Like, "x"), map["keywords" := JList([JStr("x")])]) == Err(TypeError)
  {
  }

  /** `like` does not look past the first newline of the value it tests. */
  lemma LikeStopsAtNewline()
    ensures DoesMatch(Rule("body_html", Like, "b"), map["body_html" := JStr("a\nb")]) == Ok(false)
    ensures DoesMatch(Rule("body_html", Like, "b"), map["body_html" := JStr("ab")]) == Ok(true)
  {
    assert MatchesAfterRun("b", "ab") by {
      assert "ab"[1..] == "b";
      assert CaselessPrefix("b", "ab"[1..]);
    }
    assert !MatchesAfterRun("b", "a\nb") by {
      assert Lower("a\nb")[0] == 'a';
      assert !CaselessPrefix("b", "a\nb");
      assert "a\nb"[1..] == "\nb";
      assert !CaselessPrefix("b", "\nb");
    }
  }

  lemma CategoryPath()
    ensures ProjectField("anpa-category") == "anpa-category.value"
  {
  }

  /** The store fragment for a negated list of category codes. */
  lemma CategoryStoreQuery(c: Condition, a: string, b: string)
    requires c.field == "anpa-category" && c.operator == NotIn
    requires IsDigits(a) && IsDigits(b) && c.value == a + [','] + b
    ensures GetMongoQuery(c) ==
      map["anpa-category.value" := map["$nin" := Terms([IntV(DigitsValue(a)), IntV(DigitsValue(b))])]]
  {
    NumbersBecomeIntegers(a, b);
    MongoMembershipOperators();
    CategoryPath();
  }

  /** A trailing space makes a value a different rule for the duplicate check. */
  lemma TrailingSpaceIsNotDuplicate(c: Condition)
    ensures !AreEqual(c, c.(value := c.value + " "))
  {
    IdenticalNeedsSameLength(c, c.(value := c.value + " "));
  }

  /** The upper-cased copy of a rule, or one with the halves of its value swapped,
      is a duplicate. */
  lemma CaseAndOrderCopiesAreDuplicates(c: Condition, x: string, y: string)
    ensures AreEqual(c, c.(value := Upper(c.value)))
    ensures AreEqual(c.(value := x + y), c.(value := y + x))
  {
    UpperIdempotent(c.value);
    IdenticalIgnoresCaseAndOrder(c, c.(value := Upper(c.value)));
    assert multiset(x + y) == multiset(y + x);
    IdenticalIgnoresCaseAndOrder(c.(value := x + y), c.(value := y + x));
  }

  /** Creating a rule identical to a stored one fails and names the stored rule. */
  lemma CreateDuplicateNamesStored(doc: Condition, stored: Condition, catalogue: seq<Entry>)
    requires doc.id.None? && stored.id.Some? && AreEqual(doc, stored)
    ensures OnCreate([doc], [stored], catalogue) == Fail(IdenticalSettings(stored.name))
  {
    assert Duplicates(doc, stored);
  }

  /** Creating a rule on a field outside the schema fails as an unknown field; a
      pattern rule on a coded field fails as an unknown operator. */
  lemma CreateRejectsOutsideCatalogue(doc: Condition)
    requires doc.field !in SchemaFields || (doc.field in CodedFields && !IsMembership(doc.operator))
    ensures doc.field !in SchemaFields ==>
      OnCreate([doc], [], StaticCatalogue) == Fail(UnknownField(doc.name, doc.field))
    ensures doc.field in CodedFields && !IsMembership(doc.operator) ==>
      OnCreate([doc], [], StaticCatalogue) == Fail(UnknownOperator(doc.name, OperatorName(doc.operator)))
  {
    StaticCatalogueUnknownField(doc);
    StaticCatalogueRule(doc);
    assert CheckEquals([doc][0], []).Pass?;
    OnCreateReportsFirstCatalogueError([doc], [], StaticCatalogue, 0);
  }
}

=== FILE: text.dfy ===
/** The handful of Python `str` operations the filter-condition engine relies on:
    `find`, `split`, `strip`, `isdigit`, `int`, `upper` and the case folding of
    `re.IGNORECASE`. Strings are sequences of code points. */
module Text {

  /** The characters Python's `str.isspace()` accepts, which are exactly the ones a
      bare `str.strip()` removes: the ASCII controls 9-13 and 28-31, the space, and
      the Unicode separators. */
  const SpaceChars: set<char> := {
    '\U{9}', '\U{A}', '\U{B}', '\U{C}', '\U{D}',
    '\U{1C}', '\U{1D}', '\U{1E}', '\U{1F}', ' ',
    '\U{85}', '\U{A0}', '\U{1680}',
    '\U{2000}', '\U{2001}', '\U{2002}', '\U{2003}', '\U{2004}', '\U{2005}',
    '\U{2006}', '\U{2007}', '\U{2008}', '\U{2009}', '\U{200A}',
    '\U{2028}', '\U{2029}', '\U{202F}', '\U{205F}', '\U{3000}'
  }

  predicate IsSpace(c: char) {
    c in SpaceChars
  }

  /** `s.lstrip()`: no longer than `s`, and not starting with white space. */
  function TrimStart(s: string): (r: string)
    ensures |r| <= |s|
    ensures r == [] || !IsSpace(r[0])
  {
    if |s| > 0 && IsSpace(s[0]) then TrimStart(s[1..]) else s
  }

  /** `lstrip` keeps a suffix of `s` and cuts off only white space. */
  lemma {:induction false} TrimStartCutsSpaces(s: string)
    ensures TrimStart(s) == s[|s| - |TrimStart(s)|..]
    ensures forall c :: c in s[..|s| - |TrimStart(s)|] ==> IsSpace(c)
  {
    if |s| > 0 && IsSpace(s[0]) {
      TrimStartCutsSpaces(s[1..]);
      var n := |s| - |TrimStart(s)|;
      assert s[1..][n - 1..] == s[n..];
      assert s[..n] == [s[0]] + s[1..][..n - 1];
    }
  }

  /** `s.rstrip()`: no longer than `s`, and not ending with white space. */
  function TrimEnd(s: string): (r: string)
    ensures |r| <= |s|
    ensures r == [] || !IsSpace(r[|r| - 1])
  {
    if |s| > 0 && IsSpace(s[|s| - 1]) then TrimEnd(s[..|s| - 1]) else s
  }

  /** `rstrip` keeps a prefix of `s` and cuts off only white space. */
  lemma {:induction false} TrimEndCutsSpaces(s: string)
    ensures TrimEnd(s) == s[..|TrimEnd(s)|]
    ensures forall c :: c in s[|TrimEnd(s)|..] ==> IsSpace(c)
  {
    if |s| > 0 && IsSpace(s[|s| - 1]) {
      TrimEndCutsSpaces(s[..|s| - 1]);
      var n := |TrimEnd(s)|;
      assert s[..|s| - 1][..n] == s[..n];
      assert s[n..] == s[..|s| - 1][n..] + [s[|s| - 1]];
    }
  }

  /** `r` is the slice of `s` starting at `i`, and everything around it is white space. */
  predicate SliceBetweenSpaces(s: string, i: int, r: string) {
    && 0 <= i <= |s| - |r|
    && r == s[i..i + |r|]
    && (forall c :: c in s[..i] ==> IsSpace(c))
    && (forall c :: c in s[i + |r|..] ==> IsSpace(c))
  }

  /** `s.strip()`: white space cut off both ends. A string without white space at
      its ends is kept as it is. */
  function Strip(s: string): (r: string)
    ensures |r| <= |s|
    ensures s == [] || (!IsSpace(s[0]) && !IsSpace(s[|s| - 1])) ==> r == s
  {
    TrimEnd(TrimStart(s))
  }

  /** What `strip` keeps is a slice of the input with only white space around it. */
  lemma StripKeepsSlice(s: string)
    ensures SliceBetweenSpaces(s, |s| - |TrimStart(s)|, Strip(s))
  {
    var t := TrimStart(s);
    var r := TrimEnd(t);
    var i := |s| - |t|;
    TrimStartCutsSpaces(s);
    TrimEndCutsSpaces(t);
    assert r == s[i..i + |r|] by {
      assert s[i..][..|r|] == s[i..i + |r|];
    }
    assert forall c :: c in s[i + |r|..] ==> IsSpace(c) by {
      assert s[i + |r|..] == t[|r|..];
    }
    assert SliceBetweenSpaces(s, i, r);
  }

  /** What `strip` keeps neither starts nor ends with white space. */
  lemma StripEnds(s: string)
    ensures Strip(s) == [] || (!IsSpace(Strip(s)[0]) && !IsSpace(Strip(s)[|Strip(s)| - 1]))
  {
    var t := TrimStart(s);
    var r := TrimEnd(t);
    if r != [] {
      TrimEndCutsSpaces(t);
      assert r[0] == t[0];
      assert !IsSpace(r[0]) && !IsSpace(r[|r| - 1]);
    }
  }

  predicate IsDigit(c: char) {
    '0' <= c <= '9'
  }

  /** `s.isdigit()` on ASCII text: non-empty, digits only. */
  predicate IsDigits(s: string): (b: bool)
    ensures b ==> Strip(s) == s
  {
    |s| > 0 && forall i :: 0 <= i < |s| ==> IsDigit(s[i])
  }

  /** The number a string of decimal digits denotes (leading zeros allowed). */
  function DigitsValue(s: string): nat
    requires forall i :: 0 <= i < |s| ==> IsDigit(s[i])
  {
    if |s| == 0 then 0
    else
      assert IsDigit(s[|s| - 1]);
      10 * DigitsValue(s[..|s| - 1]) + (s[|s| - 1] as int - '0' as int)
  }

  function DigitChar(d: int): (c: char)
    requires 0 <= d < 10
    ensures IsDigit(c) && c as int - '0' as int == d
  {
    ('0' as int + d) as char
  }

  /** The canonical decimal spelling of `n`, the inverse of `DigitsValue`. */
  function DecimalString(n: nat): (s: string)
    ensures IsDigits(s)
  {
    if n < 10 then [DigitChar(n)] else DecimalString(n / 10) + [DigitChar(n % 10)]
  }

  lemma {:induction false} DigitsValueOfDecimalString(n: nat)
    ensures DigitsValue(DecimalString(n)) == n
  {
    var s := DecimalString(n);
    if n >= 10 {
      assert s[..|s| - 1] == DecimalString(n / 10);
      DigitsValueOfDecimalString(n / 10);
    }
  }

  /** A digit string with a leading zero only when it is the single digit `0`. */
  predicate IsCanonicalDigits(s: string) {
    IsDigits(s) && (|s| == 1 || s[0] != '0')
  }

  /** A digit string that does not start with `0` denotes a positive number. */
  lemma {:induction false} LeadingDigitPositive(s: string)
    requires IsDigits(s) && s[0] != '0'
    ensures DigitsValue(s) >= 1
  {
    if |s| > 1 {
      LeadingDigitPositive(s[..|s| - 1]);
    }
  }

  /** Splitting off the last digit of `10 * v + d`. */
  lemma DivModDigit(v: nat, d: int)
    requires 0 <= d < 10
    ensures (10 * v + d) / 10 == v && (10 * v + d) % 10 == d
  {
  }

  /** Reading a canonical digit string and spelling the number again gives the
      string back: the other half of `DigitsValueOfDecimalString`. */
  lemma {:induction false} DecimalStringOfDigits(s: string)
    requires IsCanonicalDigits(s)
    ensures DecimalString(DigitsValue(s)) == s
  {
    var d := s[|s| - 1] as int - '0' as int;
    if |s| == 1 {
      assert DigitsValue(s) == d;
      assert DigitChar(d) == s[0];
    } else {
      var p := s[..|s| - 1];
      assert p[0] == s[0];
      LeadingDigitPositive(p);
      DecimalStringOfDigits(p);
      var n, v := DigitsValue(s), DigitsValue(p);
      assert IsDigit(s[|s| - 1]);
      assert 0 <= d < 10 && v >= 1;
      assert n == 10 * v + d;
      DivModDigit(v, d);
      assert DigitChar(d) == s[|s| - 1];
      assert s == p + [s[|s| - 1]];
    }
  }

  /** Python `int(x)` for an `x` whose `strip()` is all digits. A canonical digit
      string in the middle is exactly the decimal spelling of the result. */
  function ParseInt(x: string): (n: nat)
    requires IsDigits(Strip(x))
    ensures IsCanonicalDigits(Strip(x)) ==> DecimalString(n) == Strip(x)
  {
    assert IsCanonicalDigits(Strip(x)) ==> DecimalString(DigitsValue(Strip(x))) == Strip(x) by {
      if IsCanonicalDigits(Strip(x)) {
        DecimalStringOfDigits(Strip(x));
      }
    }
    DigitsValue(Strip(x))
  }

  /** The white space `int` itself skips around the digits: CPython turns every
      non-ASCII space into `' '` and then skips only the six ASCII spaces of the C
      locale, so the four information separators U+001C-U+001F that `strip`
      removes are not among them. */
  const IntSpaceChars: set<char> := SpaceChars - {'\U{1C}', '\U{1D}', '\U{1E}', '\U{1F}'}

  /** `int(x)` succeeds on an `x` whose `strip()` is all digits exactly when every
      white-space character of `x` is one `int` skips. */
  predicate IntAccepts(x: string) {
    IsDigits(Strip(x)) && forall i :: 0 <= i < |x| && IsSpace(x[i]) ==> x[i] in IntSpaceChars
  }

  /** A part padded with an information separator passes `strip().isdigit()` but
      is rejected by `int`; `ParseInt` still reads it as its digits. */
  lemma SeparatorPaddedPartDiverges()
    ensures var x := "\U{1C}5";
      IsDigits(Strip(x)) && !IntAccepts(x) && ParseInt(x) == 5
  {
    var x := "\U{1C}5";
    assert IsSpace(x[0]) && x[0] !in IntSpaceChars;
    assert TrimStart(x) == "5" by {
      assert x[1..] == "5";
    }
    assert Strip(x) == "5";
  }

  /** `s.find(c)`: the index of the first `c`, or -1. */
  function Find(s: string, c: char): (r: int)
    ensures -1 <= r < |s|
    ensures r == -1 <==> c !in s
    ensures 0 <= r ==> s[r] == c && c !in s[..r]
  {
    if |s| == 0 then -1
    else if s[0] == c then 0
    else
      var k := Find(s[1..], c);
      if k == -1 then -1 else k + 1
  }

  /** An occurrence with none before it is the one `find` reports. */
  lemma FindFirst(s: string, c: char, k: int)
    requires 0 <= k < |s| && s[k] == c && c !in s[..k]
    ensures Find(s, c) == k
  {
    var r := Find(s, c);
    assert c in s by { assert s[k] == c; }
    assert forall j :: 0 <= j < k ==> s[..k][j] == s[j];
    assert forall j :: 0 <= j < r ==> s[..r][j] == s[j];
  }

  /** `sep.join(parts)` */
  function Join(parts: seq<string>, sep: char): string {
    if |parts| == 0 then ""
    else if |parts| == 1 then parts[0]
    else parts[0] + [sep] + Join(parts[1..], sep)
  }

  /** `s.split(sep)`: one more part than there are separators, no part holds the
      separator, and joining the parts back gives `s`. */
  function Split(s: string, sep: char): (parts: seq<string>)
    ensures |parts| == multiset(s)[sep] + 1
    ensures forall i :: 0 <= i < |parts| ==> sep !in parts[i]
    ensures Join(parts, sep) == s
    decreases |s|
  {
    var k := Find(s, sep);
    if k < 0 then [s]
    else
      var rest := Split(s[k + 1..], sep);
      assert s == s[..k] + [sep] + s[k + 1..];
      assert multiset(s)[sep] == multiset(s[..k])[sep] + 1 + multiset(s[k + 1..])[sep];
      [s[..k]] + rest
  }

  /** A separator-free prefix followed by the separator is split off as the first
      part, and the rest is split on its own. */
  lemma SplitPeel(a: string, sep: char, rest: string)
    requires sep !in a
    ensures Find(a + [sep] + rest, sep) == |a|
    ensures Split(a + [sep] + rest, sep) == [a] + Split(rest, sep)
  {
    var s := a + [sep] + rest;
    assert s[..|a|] == a;
    FindFirst(s, sep, |a|);
    assert s[|a| + 1..] == rest;
  }

  /** Splitting undoes joining whenever no part holds the separator. */
  lemma {:induction false} SplitJoin(parts: seq<string>, sep: char)
    requires |parts| > 0
    requires forall i :: 0 <= i < |parts| ==> sep !in parts[i]
    ensures Split(Join(parts, sep), sep) == parts
  {
    if |parts| > 1 {
      var s := Join(parts, sep);
      assert s == parts[0] + [sep] + Join(parts[1..], sep);
      assert s[..|parts[0]|] == parts[0];
      FindFirst(s, sep, |parts[0]|);
      assert s[|parts[0]| + 1..] == Join(parts[1..], sep);
      SplitJoin(parts[1..], sep);
    } else {
      assert Join(parts, sep) == parts[0];
    }
  }

  function UpperChar(c: char): char {
    if 'a' <= c <= 'z' then (c as int - 32) as char else c
  }

  function LowerChar(c: char): char {
    if 'A' <= c <= 'Z' then (c as int + 32) as char else c
  }

  /** `s.upper()` on ASCII letters. */
  function Upper(s: string): (r: string)
    ensures |r| == |s|
    ensures forall i :: 0 <= i < |s| ==> r[i] == UpperChar(s[i])
  {
    seq(|s|, i requires 0 <= i < |s| => UpperChar(s[i]))
  }

  /** What `upper` does to a string: no lower-case letter is left, every other
      character is kept, and each lower-case letter becomes the capital that
      lower-cases back to it. */
  lemma UpperFolds(s: string)
    ensures forall i :: 0 <= i < |s| ==> !('a' <= Upper(s)[i] <= 'z')
    ensures forall i :: 0 <= i < |s| && !('a' <= s[i] <= 'z') ==> Upper(s)[i] == s[i]
    ensures forall i :: 0 <= i < |s| && 'a' <= s[i] <= 'z' ==> LowerChar(Upper(s)[i]) == s[i]
  {
  }

  /** The case folding `re.IGNORECASE` applies before comparing, on ASCII letters. */
  function Lower(s: string): (r: string)
    ensures |r| == |s|
    ensures forall i :: 0 <= i < |s| ==> r[i] == LowerChar(s[i])
  {
    seq(|s|, i requires 0 <= i < |s| => LowerChar(s[i]))
  }

  /** Upper-casing twice is upper-casing once. */
  lemma UpperIdempotent(s: string)
    ensures Upper(Upper(s)) == Upper(s)
  {
  }
}

=== FILE: validation.dfy ===
/** Validation a condition passes before it is stored: its field and operator must
    be in the catalogue, and no other stored condition may be a duplicate of it.
    The service raises a bad-request error on the first failure; here the first
    failure is the `Fail` outcome. Stored conditions are passed in explicitly. */
module Validation {
  import opened Results
  import opened Text
  import opened CharSort
  import opened Conditions
  import opened Catalogue

  datatype ValidationError =
    | UnknownField(condition: string, field: string)
    | UnknownOperator(condition: string, operator: string)
    | IdenticalSettings(existing: string)

  /** The catalogue check on one record: the first catalogue entry for its field
      must exist and list its operator. */
  function CheckParameters(doc: Condition, catalogue: seq<Entry>): (r: Outcome<ValidationError>)
    ensures r.Pass? <==>
      exists i :: FirstEntryFor(catalogue, i, doc.field) && doc.operator in catalogue[i].operators
    ensures r == Fail(UnknownField(doc.name, doc.field)) <==>
      forall i :: 0 <= i < |catalogue| ==> catalogue[i].field != doc.field
    ensures r.Fail? ==>
      r.error == UnknownField(doc.name, doc.field) || r.error == UnknownOperator(doc.name, OperatorName(doc.operator))
  {
    var k := EntryIndex(catalogue, doc.field);
    if k == -1 then Fail(UnknownField(doc.name, doc.field))
    else if doc.operator !in catalogue[k].operators then Fail(UnknownOperator(doc.name, OperatorName(doc.operator)))
    else Pass
  }

  /** When the catalogue describes each field once, the check is plain membership. */
  lemma CheckParametersDistinct(doc: Condition, catalogue: seq<Entry>)
    requires DistinctFields(catalogue)
    ensures CheckParameters(doc, catalogue).Pass? <==>
      exists i :: 0 <= i < |catalogue| && catalogue[i].field == doc.field && doc.operator in catalogue[i].operators
  {
    if i :| 0 <= i < |catalogue| && catalogue[i].field == doc.field && doc.operator in catalogue[i].operators {
      assert FirstEntryFor(catalogue, i, doc.field);
    }
  }

  /** The static catalogue has an entry for `f` exactly when the schema allows `f`. */
  lemma StaticEntryExists(f: string)
    ensures (exists i :: 0 <= i < |StaticCatalogue| && StaticCatalogue[i].field == f) <==> f in SchemaFields
  {
    StaticCatalogueCoversSchema();
    var fs := Fields(StaticCatalogue);
    if f in fs {
      var i :| 0 <= i < |fs| && fs[i] == f;
      assert StaticCatalogue[i].field == f;
    }
  }

  /** Against the service's catalogue a field outside the schema is the one way to
      get an unknown-field error. */
  lemma StaticCatalogueUnknownField(doc: Condition)
    ensures CheckParameters(doc, StaticCatalogue) == Fail(UnknownField(doc.name, doc.field))
            <==> doc.field !in SchemaFields
  {
    StaticEntryExists(doc.field);
  }

  lemma ClassifiedPassIsAllowed(doc: Condition, catalogue: seq<Entry>, coded: seq<string>, text: seq<string>)
    requires Classifies(catalogue, coded, text)
    requires CheckParameters(doc, catalogue).Pass?
    ensures doc.field in text || (doc.field in coded && IsMembership(doc.operator))
  {
    CheckParametersDistinct(doc, catalogue);
    var i :| 0 <= i < |catalogue| && catalogue[i].field == doc.field && doc.operator in catalogue[i].operators;
    if doc.field in coded {
      assert doc.operator in MembershipOperators;
    }
  }

  lemma ClassifiedAllowedPasses(doc: Condition, catalogue: seq<Entry>, coded: seq<string>, text: seq<string>)
    requires Classifies(catalogue, coded, text)
    requires doc.field in text || (doc.field in coded && IsMembership(doc.operator))
    ensures CheckParameters(doc, catalogue).Pass?
  {
    CheckParametersDistinct(doc, catalogue);
    var fs := Fields(catalogue);
    assert doc.field in fs;
    var i :| 0 <= i < |fs| && fs[i] == doc.field;
    if doc.field in text {
      assert catalogue[i].operators == AllOperators;
    } else {
      assert catalogue[i].operators == MembershipOperators;
    }
    assert doc.operator in catalogue[i].operators;
  }

  /** Against a catalogue that classifies its fields, a free-text field accepts
      every operator and a coded field accepts only `in`/`nin`. */
  lemma ClassifiedCatalogueRule(doc: Condition, catalogue: seq<Entry>, coded: seq<string>, text: seq<string>)
    requires Classifies(catalogue, coded, text)
    ensures CheckParameters(doc, catalogue).Pass? <==>
      doc.field in text || (doc.field in coded && IsMembership(doc.operator))
  {
    if CheckParameters(doc, catalogue).Pass? {
      ClassifiedPassIsAllowed(doc, catalogue, coded, text);
    }
    if doc.field in text || (doc.field in coded && IsMembership(doc.operator)) {
      ClassifiedAllowedPasses(doc, catalogue, coded, text);
    }
  }

  /** Against the service's catalogue a free-text field accepts every operator and a
      coded field accepts only `in`/`nin`. */
  lemma StaticCatalogueRule(doc: Condition)
    ensures CheckParameters(doc, StaticCatalogue).Pass? <==>
      doc.field in TextFields || (doc.field in CodedFields && IsMembership(doc.operator))
  {
    StaticCatalogueClassified();
    ClassifiedCatalogueRule(doc, StaticCatalogue, CodedFields, TextFields);
  }

  /** The duplicate-detection key: the upper-cased value's characters, sorted. */
  function Comparer(value: string): (r: string)
    ensures Sorted(r) && multiset(r) == multiset(Upper(value))
  {
    Sort(Upper(value))
  }

  /** Two conditions are identical when field and operator agree and their
      upper-cased values are rearrangements of each other. White space counts. */
  function AreEqual(a: Condition, b: Condition): (r: bool)
    ensures r <==>
      a.field == b.field && a.operator == b.operator && multiset(Upper(a.value)) == multiset(Upper(b.value))
  {
    SortEqualIffPermutation(Upper(a.value), Upper(b.value));
    a.field == b.field && a.operator == b.operator && Comparer(a.value) == Comparer(b.value)
  }

  /** Being identical is an equivalence on conditions. */
  lemma AreEqualIsEquivalence(a: Condition, b: Condition, c: Condition)
    ensures AreEqual(a, a)
    ensures AreEqual(a, b) <==> AreEqual(b, a)
    ensures AreEqual(a, b) && AreEqual(b, c) ==> AreEqual(a, c)
  {
  }

  lemma UpperAppend(s: string, t: string)
    ensures Upper(s + t) == Upper(s) + Upper(t)
  {
  }

  /** Upper-casing maps rearrangements to rearrangements. */
  lemma {:induction false} UpperKeepsPermutation(s: string, t: string)
    requires multiset(s) == multiset(t)
    ensures multiset(Upper(s)) == multiset(Upper(t))
    decreases |s|
  {
    if |s| > 0 {
      assert s[0] in multiset(t);
      var k :| 0 <= k < |t| && t[k] == s[0];
      var rest := t[..k] + t[k + 1..];
      assert t == t[..k] + [t[k]] + t[k + 1..];
      assert s == [s[0]] + s[1..];
      assert multiset(t) == multiset(t[..k]) + multiset{t[k]} + multiset(t[k + 1..]);
      assert multiset(rest) == multiset(t[..k]) + multiset(t[k + 1..]);
      assert multiset(rest) == multiset(t) - multiset{s[0]};
      assert multiset(s[1..]) == multiset(s) - multiset{s[0]};
      UpperKeepsPermutation(s[1..], rest);
      UpperAppend([s[0]], s[1..]);
      UpperAppend(t[..k] + [t[k]], t[k + 1..]);
      UpperAppend(t[..k], [t[k]]);
      UpperAppend(t[..k], t[k + 1..]);
    } else {
      assert |t| == |multiset(t)| == 0;
    }
  }

  /** Neither letter case nor the order of the characters distinguishes two values. */
  lemma IdenticalIgnoresCaseAndOrder(a: Condition, b: Condition)
    requires a.field == b.field && a.operator == b.operator
    requires multiset(a.value) == multiset(b.value) || Upper(a.value) == Upper(b.value)
    ensures AreEqual(a, b)
  {
    if multiset(a.value) == multiset(b.value) {
      UpperKeepsPermutation(a.value, b.value);
    }
  }

  /** Values of different length are never identical: in particular adding or
      removing a space makes a different condition. */
  lemma IdenticalNeedsSameLength(a: Condition, b: Condition)
    requires |a.value| != |b.value|
    ensures !AreEqual(a, b)
  {
    assert |multiset(Upper(a.value))| == |a.value|;
    assert |multiset(Upper(b.value))| == |b.value|;
  }

  /** Every stored condition carries a storage key. */
  predicate Stored(existing: seq<Condition>) {
    forall i :: 0 <= i < |existing| ==> existing[i].id.Some?
  }

  /** `e` is the stored copy of the record `doc` itself, which the duplicate check skips. */
  predicate SameRecord(doc: Condition, e: Condition) {
    doc.id.Some? && doc.id == e.id
  }

  /** `e` makes `doc` a duplicate: another record with identical settings. */
  predicate Duplicates(doc: Condition, e: Condition) {
    !SameRecord(doc, e) && AreEqual(doc, e)
  }

  /** The stored conditions with the record's field and operator, in storage order. */
  function Candidates(doc: Condition, existing: seq<Condition>): (r: seq<Condition>)
    ensures forall e :: e in r <==> e in existing && e.field == doc.field && e.operator == doc.operator
  {
    if |existing| == 0 then []
    else
      var rest := Candidates(doc, existing[1..]);
      assert existing == [existing[0]] + existing[1..];
      if existing[0].field == doc.field && existing[0].operator == doc.operator
      then [existing[0]] + rest
      else rest
  }

  /** Scans the candidates in order and fails on the first duplicate. */
  function FirstDuplicate(doc: Condition, candidates: seq<Condition>): (r: Outcome<ValidationError>)
    ensures r.Pass? <==> forall e :: e in candidates ==> !Duplicates(doc, e)
    ensures r.Fail? ==> exists e :: e in candidates && Duplicates(doc, e) && r.error == IdenticalSettings(e.name)
  {
    if |candidates| == 0 then Pass
    else
      var e := candidates[0];
      assert candidates == [e] + candidates[1..];
      if SameRecord(doc, e) then FirstDuplicate(doc, candidates[1..])
      else if AreEqual(doc, e) then
        assert e in candidates && Duplicates(doc, e);
        Fail(IdenticalSettings(e.name))
      else FirstDuplicate(doc, candidates[1..])
  }

  /** A candidate that is not a duplicate is passed over by the scan. */
  lemma SkipsNonDuplicate(doc: Condition, e: Condition, rest: seq<Condition>)
    requires !Duplicates(doc, e)
    ensures FirstDuplicate(doc, [e] + rest) == FirstDuplicate(doc, rest)
  {
    assert ([e] + rest)[1..] == rest;
  }

  /** A candidate that is a duplicate stops the scan. */
  lemma StopsAtDuplicate(doc: Condition, e: Condition, rest: seq<Condition>)
    requires Duplicates(doc, e)
    ensures FirstDuplicate(doc, [e] + rest) == Fail(IdenticalSettings(e.name))
  {
    assert ([e] + rest)[0] == e;
  }

  /** The scan names the first duplicate in candidate order, as the loop at line 99
      raises on the first identical record it meets. */
  lemma {:induction false} FirstDuplicateNamesFirst(doc: Condition, candidates: seq<Condition>, i: int)
    requires 0 <= i < |candidates| && Duplicates(doc, candidates[i])
    requires forall j :: 0 <= j < i ==> !Duplicates(doc, candidates[j])
    ensures FirstDuplicate(doc, candidates) == Fail(IdenticalSettings(candidates[i].name))
    decreases i
  {
    var e, rest := candidates[0], candidates[1..];
    assert candidates == [e] + rest;
    if i == 0 {
      StopsAtDuplicate(doc, e, rest);
    } else {
      assert !Duplicates(doc, e);
      SkipsNonDuplicate(doc, e, rest);
      forall j | 0 <= j < i - 1
        ensures !Duplicates(doc, rest[j])
      {
        assert rest[j] == candidates[j + 1];
      }
      assert rest[i - 1] == candidates[i];
      FirstDuplicateNamesFirst(doc, rest, i - 1);
    }
  }

  /** Over the whole store, the scan names the first identical stored condition in
      storage order: a duplicate always has the record's field and operator, so it
      is among the candidates, and the candidates keep storage order. */
  lemma {:induction false} CandidatesNameFirst(doc: Condition, existing: seq<Condition>, i: int)
    requires 0 <= i < |existing| && Duplicates(doc, existing[i])
    requires forall j :: 0 <= j < i ==> !Duplicates(doc, existing[j])
    ensures FirstDuplicate(doc, Candidates(doc, existing)) == Fail(IdenticalSettings(existing[i].name))
    decreases i
  {
    var e := existing[0];
    var rest := Candidates(doc, existing[1..]);
    if i == 0 {
      assert Candidates(doc, existing) == [e] + rest;
      assert ([e] + rest)[0] == e;
    } else {
      assert !Duplicates(doc, e);
      forall j | 0 <= j < i - 1
        ensures !Duplicates(doc, existing[1..][j])
      {
        assert existing[1..][j] == existing[j + 1];
      }
      assert existing[1..][i - 1] == existing[i];
      CandidatesNameFirst(doc, existing[1..], i - 1);
      if e.field == doc.field && e.operator == doc.operator {
        assert Candidates(doc, existing) == [e] + rest;
        SkipsNonDuplicate(doc, e, rest);
      }
    }
  }

  /** The duplicate check on one record: it fails, naming a stored condition, exactly
      when some stored condition other than the record itself is identical to it. */
  function CheckEquals(doc: Condition, existing: seq<Condition>): (r: Outcome<ValidationError>)
    requires Stored(existing)
    ensures r.Pass? <==> forall e :: e in existing ==> !Duplicates(doc, e)
    ensures r.Fail? ==> exists e :: e in existing && Duplicates(doc, e) && r.error == IdenticalSettings(e.name)
  {
    FirstDuplicate(doc, Candidates(doc, existing))
  }

  /** A failing duplicate check names the first identical stored condition. */
  lemma CheckEqualsNamesFirst(doc: Condition, existing: seq<Condition>, i: int)
    requires Stored(existing)
    requires 0 <= i < |existing| && Duplicates(doc, existing[i])
    requires forall j :: 0 <= j < i ==> !Duplicates(doc, existing[j])
    ensures CheckEquals(doc, existing) == Fail(IdenticalSettings(existing[i].name))
  {
    CandidatesNameFirst(doc, existing, i);
  }

  /** Record-by-record checking of a batch, as the loops at lines 85 and 97 do:
      the first failure is raised and the rest of the batch is not looked at. */
  function FirstFailure(outcomes: seq<Outcome<ValidationError>>): (r: Outcome<ValidationError>)
    ensures r.Pass? <==> forall i :: 0 <= i < |outcomes| ==> outcomes[i].Pass?
    ensures r.Fail? ==>
      exists i :: 0 <= i < |outcomes| && r == outcomes[i] && (forall j :: 0 <= j < i ==> outcomes[j].Pass?)
  {
    if |outcomes| == 0 then Pass
    else if outcomes[0].Fail? then outcomes[0]
    else
      var r := FirstFailure(outcomes[1..]);
      assert r.Fail? ==>
        exists i :: 0 <= i < |outcomes| && r == outcomes[i] && (forall j :: 0 <= j < i ==> outcomes[j].Pass?) by {
        if r.Fail? {
          var k :| 0 <= k < |outcomes| - 1 && r == outcomes[1..][k] && (forall j :: 0 <= j < k ==> outcomes[1..][j].Pass?);
          assert r == outcomes[k + 1];
          forall j | 0 <= j < k + 1
            ensures outcomes[j].Pass?
          {
            if j > 0 {
              assert outcomes[j] == outcomes[1..][j - 1];
            }
          }
        }
      }
      assert r.Pass? ==> forall i :: 0 <= i < |outcomes| ==> outcomes[i].Pass? by {
        if r.Pass? {
          forall i | 1 <= i < |outcomes|
            ensures outcomes[i].Pass?
          {
            assert outcomes[i] == outcomes[1..][i - 1];
          }
        }
      }
      r
  }

  /** The failure `FirstFailure` reports is the one of the first failing entry. */
  lemma FirstFailureIsFirst(outcomes: seq<Outcome<ValidationError>>, i: int)
    requires 0 <= i < |outcomes| && outcomes[i].Fail?
    requires forall j :: 0 <= j < i ==> outcomes[j].Pass?
    ensures FirstFailure(outcomes) == outcomes[i]
  {
    var r := FirstFailure(outcomes);
    var k :| 0 <= k < |outcomes| && r == outcomes[k] && (forall j :: 0 <= j < k ==> outcomes[j].Pass?);
    assert k == i;
  }

  /** The duplicate check of every record of a batch, in batch order. */
  function EqualsOutcomes(docs: seq<Condition>, existing: seq<Condition>): (r: seq<Outcome<ValidationError>>)
    requires Stored(existing)
    ensures |r| == |docs| && forall i :: 0 <= i < |docs| ==> r[i] == CheckEquals(docs[i], existing)
  {
    seq(|docs|, i requires 0 <= i < |docs| => CheckEquals(docs[i], existing))
  }

  /** The catalogue check of every record of a batch, in batch order. */
  function ParametersOutcomes(docs: seq<Condition>, catalogue: seq<Entry>): (r: seq<Outcome<ValidationError>>)
    ensures |r| == |docs| && forall i :: 0 <= i < |docs| ==> r[i] == CheckParameters(docs[i], catalogue)
  {
    seq(|docs|, i requires 0 <= i < |docs| => CheckParameters(docs[i], catalogue))
  }

  /** The duplicate check on a batch: the first record that fails decides. */
  function CheckEqualsAll(docs: seq<Condition>, existing: seq<Condition>): (r: Outcome<ValidationError>)
    requires Stored(existing)
    ensures r.Pass? <==> forall i :: 0 <= i < |docs| ==> CheckEquals(docs[i], existing).Pass?
    ensures r.Fail? ==> r.error.IdenticalSettings?
    ensures r.Fail? ==> exists i :: 0 <= i < |docs| && r == CheckEquals(docs[i], existing)
  {
    FirstFailure(EqualsOutcomes(docs, existing))
  }

  /** The catalogue check on a batch: the first record that fails decides. */
  function CheckParametersAll(docs: seq<Condition>, catalogue: seq<Entry>): (r: Outcome<ValidationError>)
    ensures r.Pass? <==> forall i :: 0 <= i < |docs| ==> CheckParameters(docs[i], catalogue).Pass?
    ensures r.Fail? ==> !r.error.IdenticalSettings?
    ensures r.Fail? ==> exists i :: 0 <= i < |docs| && r == CheckParameters(docs[i], catalogue)
  {
    FirstFailure(ParametersOutcomes(docs, catalogue))
  }

  /** A failing batch duplicate check reports the first failing record's error. */
  lemma CheckEqualsAllReportsFirst(docs: seq<Condition>, existing: seq<Condition>, i: int)
    requires Stored(existing)
    requires 0 <= i < |docs| && CheckEquals(docs[i], existing).Fail?
    requires forall j :: 0 <= j < i ==> CheckEquals(docs[j], existing).Pass?
    ensures CheckEqualsAll(docs, existing) == CheckEquals(docs[i], existing)
  {
    FirstFailureIsFirst(EqualsOutcomes(docs, existing), i);
  }

  /** A failing batch catalogue check reports the first failing record's error. */
  lemma CheckParametersAllReportsFirst(docs: seq<Condition>, catalogue: seq<Entry>, i: int)
    requires 0 <= i < |docs| && CheckParameters(docs[i], catalogue).Fail?
    requires forall j :: 0 <= j < i ==> CheckParameters(docs[j], catalogue).Pass?
    ensures CheckParametersAll(docs, catalogue) == CheckParameters(docs[i], catalogue)
  {
    FirstFailureIsFirst(ParametersOutcomes(docs, catalogue), i);
  }

  /** Create: every record is checked for duplicates first, then every record
      against the catalogue. */
  function OnCreate(docs: seq<Condition>, existing: seq<Condition>, catalogue: seq<Entry>): (r: Outcome<ValidationError>)
    requires Stored(existing)
    ensures r.Pass? <==> forall i :: 0 <= i < |docs| ==>
      CheckEquals(docs[i], existing).Pass? && CheckParameters(docs[i], catalogue).Pass?
    ensures (exists i :: 0 <= i < |docs| && CheckEquals(docs[i], existing).Fail?) ==>
      r.Fail? && r.error.IdenticalSettings?
    ensures r.Fail? ==>
      exists i :: 0 <= i < |docs| && (r == CheckEquals(docs[i], existing) || r == CheckParameters(docs[i], catalogue))
  {
    match CheckEqualsAll(docs, existing)
    case Fail(e) => Fail(e)
    case Pass => CheckParametersAll(docs, catalogue)
  }

  /** A create with a duplicate reports the duplicate error of the first record
      that has one, whatever the catalogue says. */
  lemma OnCreateReportsFirstDuplicate(docs: seq<Condition>, existing: seq<Condition>, catalogue: seq<Entry>, i: int)
    requires Stored(existing)
    requires 0 <= i < |docs| && CheckEquals(docs[i], existing).Fail?
    requires forall j :: 0 <= j < i ==> CheckEquals(docs[j], existing).Pass?
    ensures OnCreate(docs, existing, catalogue) == CheckEquals(docs[i], existing)
  {
    CheckEqualsAllReportsFirst(docs, existing, i);
  }

  /** A create free of duplicates reports the catalogue error of the first record
      that fails the catalogue check. */
  lemma OnCreateReportsFirstCatalogueError(docs: seq<Condition>, existing: seq<Condition>, catalogue: seq<Entry>, i: int)
    requires Stored(existing)
    requires forall j :: 0 <= j < |docs| ==> CheckEquals(docs[j], existing).Pass?
    requires 0 <= i < |docs| && CheckParameters(docs[i], catalogue).Fail?
    requires forall j :: 0 <= j < i ==> CheckParameters(docs[j], catalogue).Pass?
    ensures OnCreate(docs, existing, catalogue) == CheckParameters(docs[i], catalogue)
  {
    CheckParametersAllReportsFirst(docs, catalogue, i);
  }

  /** Update: the original overlaid with the patch is validated as a whole, exactly
      as a create of that one merged record would be. */
  function OnUpdate(updates: ConditionPatch, original: Condition, existing: seq<Condition>, catalogue: seq<Entry>): (r: Outcome<ValidationError>)
    requires Stored(existing)
    ensures r.Pass? <==>
      CheckEquals(Merge(original, updates), existing).Pass? && CheckParameters(Merge(original, updates), catalogue).Pass?
    ensures r.Fail? && !r.error.IdenticalSettings? ==> CheckEquals(Merge(original, updates), existing).Pass?
    ensures r.Fail? && r.error.IdenticalSettings? ==> r == CheckEquals(Merge(original, updates), existing)
    ensures r.Fail? && !r.error.IdenticalSettings? ==> r == CheckParameters(Merge(original, updates), catalogue)
  {
    var doc := Merge(original, updates);
    match CheckEquals(doc, existing)
    case Fail(e) => Fail(e)
    case Pass => CheckParameters(doc, catalogue)
  }

  /** The storage invariant validation maintains: no two differently-keyed stored
      conditions are identical. */
  predicate NoDuplicates(existing: seq<Condition>) {
    forall i, j :: 0 <= i < |existing| && 0 <= j < |existing| && existing[i].id != existing[j].id ==>
      !AreEqual(existing[i], existing[j])
  }

  /** Re-validating a stored condition without changing it always succeeds when the
      store is free of duplicates and the condition fits the catalogue. */
  lemma RevalidateUnchanged(original: Condition, existing: seq<Condition>, catalogue: seq<Entry>)
    requires Stored(existing) && NoDuplicates(existing)
    requires original in existing
    requires CheckParameters(original, catalogue).Pass?
    ensures OnUpdate(NoChange, original, existing, catalogue).Pass?
  {
    MergeNoChangeAndIdempotent(original, NoChange);
    var k :| 0 <= k < |existing| && existing[k] == original;
    forall e | e in existing
      ensures !Duplicates(original, e)
    {
      var j :| 0 <= j < |existing| && existing[j] == e;
      if original.id != e.id {
        assert !AreEqual(existing[k], existing[j]);
      }
    }
  }

  /** Storing a newly created record under a fresh key keeps the store free of
      duplicates, provided the create passed validation. */
  lemma CreateKeepsNoDuplicates(doc: Condition, key: string, existing: seq<Condition>, catalogue: seq<Entry>)
    requires Stored(existing) && NoDuplicates(existing)
    requires doc.id.None?
    requires forall e :: e in existing ==> e.id != Some(key)
    requires OnCreate([doc], existing, catalogue).Pass?
    ensures Stored(existing + [doc.(id := Some(key))])
    ensures NoDuplicates(existing + [doc.(id := Some(key))])
  {
    var stored := doc.(id := Some(key));
    var after := existing + [stored];
    assert CheckEquals([doc][0], existing).Pass?;
    forall i, j | 0 <= i < |after| && 0 <= j < |after| && after[i].id != after[j].id
      ensures !AreEqual(after[i], after[j])
    {
      if i == |existing| {
        assert after[j] in existing;
      } else if j == |existing| {
        assert after[i] in existing;
      }
    }
  }

  /** Replacing a stored record by its validated update keeps the store free of
      duplicates. */
  lemma UpdateKeepsNoDuplicates(
    updates: ConditionPatch, k: nat, existing: seq<Condition>, catalogue: seq<Entry>)
    requires Stored(existing) && NoDuplicates(existing)
    requires k < |existing|
    requires OnUpdate(updates, existing[k], existing, catalogue).Pass?
    ensures Stored(existing[k := Merge(existing[k], updates)])
    ensures NoDuplicates(existing[k := Merge(existing[k], updates)])
  {
    var merged := Merge(existing[k], updates);
    var after := existing[k := merged];
    forall i, j | 0 <= i < |after| && 0 <= j < |after| && after[i].id != after[j].id
      ensures !AreEqual(after[i], after[j])
    {
      if i == k {
        assert after[j] == existing[j] && existing[j] in existing;
        assert !Duplicates(merged, existing[j]);
      } else if j == k {
        assert after[i] == existing[i] && existing[i] in existing;
        assert !Duplicates(merged, existing[i]);
      }
    }
  }
}
